=== FILE: README.md ===
# HumanaT in Dafny

HumanaT is a small English-like scripting language. Its implementation has three stages:

- `tokenize(code)` cuts the text into STRING, NUMBER, IDENTIFIER and KEYWORD tokens and ends them with EOF. It uses one regular-expression alternation run by `re.finditer`.
- `Parser(tokens).parse()` is a recursive-descent parser. It builds `say`, `let … be`, `if … then`, `repeat … times` and `while … do … end` statements over number, string, identifier and comparison expressions.
- `Interpreter(statements).run()` walks the tree. It keeps a dictionary of variables and prints to the console.

`humanat.py` holds a second copy of all three stages and the driver `run(code)`.

This project models the three stages as pure functions and proves what they do.

- **Lexer** (`lexer.dfy`) models the alternation position by position: `MatchAt` is the first alternative that matches. `FindIter` is the left-to-right, non-overlapping walk that `re.finditer` makes.
- **LexerFacts** (`lexer_facts.dfy`) states what the scanner produces:
  - it gives the unique tokenization of the text, and every lexeme has the shape of its kind;
  - digits are never left uncovered, and an unclosed quote is skipped;
  - text yields only EOF exactly when no token can start in it;
  - the IDENTIFIER-before-KEYWORD ordering has a consequence, stated below.
- **Decimal** (`decimal.dfy`) models `int()` on a NUMBER token, with its inverse `str()`.
- **Parser** (`parser.dfy`) has one function per method of the `Parser` class. Each takes a token list and a cursor, and returns either the node with the cursor after it, or the exception raised:
  - `SyntaxError` carries the offending token;
  - `IndexError` is a `peek()` past the end;
  - `RecursionError` is Python's recursion limit.
- **ParserFacts** (`parser_facts.dfy`) states what the parser as written does with any token list.
- **Interpreter** (`interpreter.dfy`) models the interpreter. It follows Python's values and comparisons:
  - a `bool` is compared as 0 or 1;
  - ordering a `str` against a number raises `TypeError`;
  - `==` between them is false.
- **InterpreterFacts** (`interpreter_facts.dfy`) states how statements change the state, the properties of comparison, and the effect of the fuel bound. It also proves that the two interpreter copies agree.
- **Pipeline** (`pipeline.dfy`) models `run(code)`.
- **Layout** and **RoundTrip** (`layout.dfy`, `roundtrip.dfy`) render every program of the intended grammar as a token list, and prove that the corrected parser reads it back.

The flag `Revision` selects between the code as written (`AsWritten`) and a corrected version (`Corrected`):

- the corrected lexer tries KEYWORD before IDENTIFIER;
- the corrected `statement()` consumes the reserved word it dispatched on;
- the corrected `expression()` reads `primary [comparison-phrase primary]`.

The model follows the code, which lacks these corrections, and keeps them as the separate `Corrected` revision (see Findings).

The corrected lexer keeps NUMBER before KEYWORD. The two never compete, because a NUMBER match starts with a digit and a KEYWORD match starts with a letter.

The flag `Dialect` selects between the interpreter of `interpreter.py` (`ModuleInterpreter`) and the copy in `humanat.py` (`ScriptInterpreter`). The copy has no `functionStmt` and no `returnStmt` branch.

## Model

| member | source | states |
|---|---|---|
| Lexer.StringMatch | HumanaT/src/lexer.py:18 | a STRING match exists at `i` exactly when `i` holds a quote that a later quote closes |
| Lexer.NumberMatch | HumanaT/src/lexer.py:19 | a NUMBER match exists exactly when `i` holds a digit, and it stays inside the text |
| Lexer.IdentifierMatch | HumanaT/src/lexer.py:20 | an IDENTIFIER match exists exactly when `i` holds a letter or `_` |
| Lexer.KeywordMatch | HumanaT/src/lexer.py:21 | a KEYWORD match starts with a letter and stays inside the text, and wherever a reserved word stands as a whole word at `i` the match is exactly that word |
| Lexer.FirstKeyword | HumanaT/src/lexer.py:21 | the reserved-word alternative chosen stands as a whole word at `i`, and none listed before it does |
| Lexer.MatchAt | HumanaT/src/lexer.py:17-23 | the alternation's match is non-empty, is never EOF, and has exactly the length of its own alternative's match |
| Lexer.MatchTable | HumanaT/src/lexer.py:23-24 | every match the alternation can report is non-empty and ends inside the text |
| Lexer.FindIter | HumanaT/src/lexer.py:24 | the matches `re.finditer` reports from `i` lie inside the rest of the text and are non-empty |
| Lexer.FindIterOrdered | HumanaT/src/lexer.py:24 | the matches come left to right and never overlap |
| Lexer.FindIterFromTable | HumanaT/src/lexer.py:24-26 | each reported match is the alternation's match at its own start position |
| Lexer.Scan | HumanaT/src/lexer.py:23-24 | `re.finditer` over the whole text gives non-empty lexemes that lie inside it; their order and origin are stated by `Lexer.FindIterOrdered`, `Lexer.FindIterFromTable` and `LexerFacts.ScanCharacterization` |
| Lexer.Tokenize | HumanaT/src/lexer.py:15-29 | the token list ends with EOF, and no earlier token is EOF or has empty text |
| LexerFacts.ScanSkipsOnlyUnmatched | HumanaT/src/lexer.py:24 | every position the scan skips is one where no alternative matches |
| LexerFacts.TokenizationIsUnique | HumanaT/src/lexer.py:24 | any ordered covering by alternation matches whose gaps match nothing equals the scan |
| LexerFacts.ScanCharacterization | HumanaT/src/lexer.py:24-27 | a lexeme list is the scanner's output if and only if it is such a tokenization of the text |
| LexerFacts.TokenizeIsScan | HumanaT/src/lexer.py:24-29 | the tokens are the lexemes in order, each with the text it covers, followed by EOF |
| LexerFacts.StringMatchShape | HumanaT/src/lexer.py:18 | a STRING lexeme is a quote, text without quotes, and a quote |
| LexerFacts.KeywordMatchShape | HumanaT/src/lexer.py:21 | a KEYWORD lexeme is one of the thirteen reserved words, standing as a whole word |
| LexerFacts.AlternativeShape | HumanaT/src/lexer.py:18-21 | whatever an alternative matches has the shape of its kind |
| LexerFacts.MatchAtShape | HumanaT/src/lexer.py:17-23 | whatever the alternation matches has the shape of the kind it reports |
| LexerFacts.ScanShape | HumanaT/src/lexer.py:17-27 | every lexeme has the shape of its kind: a quoted string, a maximal digit run, a maximal word, or a whole reserved word |
| LexerFacts.KeywordIsAlsoIdentifier | HumanaT/src/lexer.py:20-21 | wherever the KEYWORD pattern matches, the IDENTIFIER pattern matches too |
| LexerFacts.ReservedWordLexing | HumanaT/src/lexer.py:17-23 | at a reserved word, the code as written reports IDENTIFIER and the corrected order reports KEYWORD; elsewhere the two agree |
| LexerFacts.ReservedWordAt | HumanaT/src/lexer.py:17-23 | wherever a reserved word stands as a whole word, the corrected order reports it as a KEYWORD of its own length, and the order as written reports an IDENTIFIER |
| LexerFacts.AsWrittenMatchNeverKeyword | HumanaT/src/lexer.py:17-23 | as written, the alternation never reports KEYWORD at any position |
| LexerFacts.AsWrittenTokenizeNeverKeyword | HumanaT/src/lexer.py:15-29 | as written, `tokenize` returns no KEYWORD token for any text |
| LexerFacts.SayAsWritten | HumanaT/src/lexer.py:15-29 | as written, `tokenize("say")` is an IDENTIFIER `say` followed by EOF |
| LexerFacts.SayCorrected | HumanaT/src/lexer.py:15-29 | with KEYWORD tried first, `tokenize("say")` is a KEYWORD `say` followed by EOF |
| LexerFacts.NoMatchMeansNoAlternative | HumanaT/src/lexer.py:23-24 | where the alternation matches nothing, no single alternative matches |
| LexerFacts.NumberPreceded | HumanaT/src/lexer.py:19-24 | a NUMBER token is never immediately preceded by a digit |
| LexerFacts.DigitsAreCovered | HumanaT/src/lexer.py:19-24 | every digit of the text lies inside some lexeme |
| LexerFacts.UnclosedQuoteMatchesNothing | HumanaT/src/lexer.py:18-23 | a quote with no closing quote after it matches no alternative |
| LexerFacts.UnclosedQuoteSkipped | HumanaT/src/lexer.py:18-24 | no token starts at an unclosed quote |
| LexerFacts.NoMatchAt | HumanaT/src/lexer.py:18-23 | nothing matches at a position exactly when it holds no word character and no quote that a later quote closes |
| LexerFacts.OnlyEof | HumanaT/src/lexer.py:24-29 | `tokenize` returns just EOF if and only if no token can start anywhere in the text |
| Decimal.ParseInt | HumanaT/src/parser.py:48 | `int()` succeeds exactly on a non-empty digit string, gives a non-negative value, and otherwise raises `ValueError` on that text |
| Decimal.ParseToDecimal | HumanaT/src/interpreter.py:35 | `int(str(n)) == n` |
| Decimal.ToDecimalValueOf | HumanaT/src/interpreter.py:35 | `str(int(d)) == d` for numerals without leading zeros |
| Parser.Peek | HumanaT/src/parser.py:95-96 | the token under the cursor when the cursor is inside the list, and `IndexError` exactly when it is not |
| Parser.Match | HumanaT/src/parser.py:91-93 | the test succeeds exactly inside the list and is true exactly when kind and, if given, text agree |
| Parser.Consume | HumanaT/src/parser.py:84-89 | on success it returns the token under the cursor and advances by one; it fails exactly on a mismatch or past the end, with the matching error |
| Parser.ComparisonOf | HumanaT/src/parser.py:66-80 | a token is a comparison phrase exactly when it is the KEYWORD for that operator |
| Parser.Expression | HumanaT/src/parser.py:59-82 | the only successful parse is a single primary token, returned verbatim, with the cursor one past it |
| Parser.Comparison | HumanaT/src/parser.py:66-80 | a comparison branch fails whenever the token under the cursor is not a primary, which is always the case when the branch is entered |
| Parser.InfixExpression | HumanaT/src/parser.py:59-82 | the corrected expression parser always advances and stays inside the list |
| Parser.Primary | HumanaT/src/parser.py:60-65 | a primary is parsed exactly from a NUMBER, STRING or IDENTIFIER token; otherwise `SyntaxError` on the token |
| Parser.Statement | HumanaT/src/parser.py:14-26 | a successful statement advances the cursor; on an EOF-terminated list it never runs past EOF |
| Parser.PrintStmt | HumanaT/src/parser.py:28-30 | `say` takes one STRING token with its quotes; otherwise `SyntaxError` on the token |
| Parser.AssignStmt | HumanaT/src/parser.py:32-36 | an assignment starts on an IDENTIFIER and advances |
| Parser.IfStmt | HumanaT/src/parser.py:38-42 | a successful `if` advances and stays inside the list |
| Parser.LoopStmt | HumanaT/src/parser.py:44-48 | a loop starts on a NUMBER token and advances |
| Parser.WhileStmt | HumanaT/src/parser.py:50-57 | a successful `while` advances and stays inside the list |
| Parser.WhileBody | HumanaT/src/parser.py:53-56 | a body ends just after a KEYWORD `end` token |
| Parser.ParseFrom | HumanaT/src/parser.py:9-11 | on an EOF-terminated list, parsing never fails with `IndexError` |
| Parser.Parse | HumanaT/src/parser.py:8-12 | on an EOF-terminated list, `parse()` never fails with `IndexError` |
| ParserFacts.ComparisonNeverReturns | HumanaT/src/parser.py:66-80 | `expression()` on a comparison phrase ends in `RecursionError`, whatever the depth allowed |
| ParserFacts.ExpressionAsWritten | HumanaT/src/parser.py:59-82 | the full behaviour of `expression()`: a primary, `RecursionError` on a comparison phrase, and otherwise `SyntaxError` or `IndexError` |
| ParserFacts.StatementAsWritten | HumanaT/src/parser.py:14-57 | as written, `statement()` raises `SyntaxError` on the token under the cursor for every token list |
| ParserFacts.ParseAsWritten | HumanaT/src/parser.py:8-26 | as written, `parse()` succeeds exactly on lists that start with EOF, and then returns no statements |
| ParserFacts.WhileBodyAtEof | HumanaT/src/parser.py:54-56 | a `while` body that meets EOF before `end` raises `SyntaxError` on the EOF token |
| ParserFacts.WhileBodyAtEnd | HumanaT/src/parser.py:54-56 | `end` closes a body: it is consumed and adds no statement |
| ParserFacts.LoopStmtShape | HumanaT/src/parser.py:44-48 | NUMBER `times` statement builds a loop whose count is the numeral's value |
| RoundTrip.ExprRoundTrip | HumanaT/src/parser.py:59-82 | the corrected `expression()` reads back every primary and every `primary phrase primary`, and stops right after it |
| RoundTrip.PrintRoundTrip | HumanaT/src/parser.py:28-30 | the corrected parser reads back a rendered `say` statement |
| RoundTrip.AssignRoundTrip | HumanaT/src/parser.py:32-36 | the corrected parser reads back a rendered `let … be` statement |
| RoundTrip.IfRoundTrip | HumanaT/src/parser.py:38-42 | the corrected parser reads back a rendered `if … then` statement |
| RoundTrip.LoopRoundTrip | HumanaT/src/parser.py:44-48 | the corrected parser reads back a rendered `repeat … times` statement |
| RoundTrip.WhileRoundTrip | HumanaT/src/parser.py:50-57 | the corrected parser reads back a rendered `while … do … end` statement |
| RoundTrip.StmtRoundTrip | HumanaT/src/parser.py:14-26 | the corrected `statement()` reads back any rendered grammar statement and stops right after it |
| RoundTrip.BlockRoundTrip | HumanaT/src/parser.py:53-56 | the corrected body loop reads back any rendered statement sequence and consumes the closing `end` |
| RoundTrip.ProgramRoundTrip | HumanaT/src/parser.py:9-11 | the corrected `parse()` loop reads back any rendered program up to EOF |
| RoundTrip.ParseRoundTrip | HumanaT/src/parser.py:8-12 | `parse()` corrected gives back exactly the program whose tokens it is given |
| Interpreter.Unquote | HumanaT/src/interpreter.py:12-13 | `s[1:-1]` is the text between the first and last characters; it is empty for texts shorter than two |
| Interpreter.Truthy | HumanaT/src/interpreter.py:17 | the implicit truth test of `if` and `while` (also line 23): of the values a program can build, exactly `0`, `''` and `False` are false |
| Interpreter.NumberOf | HumanaT/src/interpreter.py:43-48 | `bool` is a subclass of `int` in a comparison: an int stands for itself, `True` for 1 and `False` for 0 |
| Interpreter.StrLess | HumanaT/src/interpreter.py:44-46 | Python's `<` on `str`, by code point: a proper prefix comes first and no string comes before itself; `InterpreterFacts.StrLessTrichotomy` makes it a strict total order |
| Interpreter.CompareValues | HumanaT/src/interpreter.py:43-48 | a comparison gives a bool; it raises `TypeError` exactly when it orders a string against a number; which relation each phrase computes is `InterpreterFacts.CompareSemantics` |
| Interpreter.Evaluate | HumanaT/src/interpreter.py:33-50 | a numeral evaluates to a non-negative int, a string literal to a string two characters shorter, a comparison to a bool; the only errors are `ValueError`, an undefined name, `TypeError` and an unknown node (the exact values are stated by the `InterpreterFacts.Evaluate…` lemmas) |
| Interpreter.Exec | HumanaT/src/interpreter.py:11-31 | executing a statement only appends to the lines already printed, and raises only run-time errors; what each statement does is in the `InterpreterFacts` semantics lemmas |
| Interpreter.Repeat | HumanaT/src/interpreter.py:19-21 | a repetition only appends to the output, and raises only run-time errors; that it runs the body `n` times in a row is `InterpreterFacts.RepeatIsRunAll` |
| Interpreter.RunWhile | HumanaT/src/interpreter.py:22-25 | a `while` loop only appends to the output, and raises only run-time errors; one pass of it is `InterpreterFacts.WhileSemantics` |
| Interpreter.ExecBlock | HumanaT/src/interpreter.py:24-25 | a pass over a loop body only appends to the output, and raises only run-time errors; that it runs the body as a program is `InterpreterFacts.ExecBlockIsRunAll` |
| Interpreter.RunAll | HumanaT/src/interpreter.py:7-9 | running a program only appends to the output, and raises only run-time errors; that it runs the statements in order is `InterpreterFacts.RunAllOne` with `InterpreterFacts.RunAllSplits` |
| Interpreter.Run | HumanaT/src/interpreter.py:2-9 | `Interpreter(statements).run()` raises only run-time errors, never a parser error; with no statements it ends normally with no variables and no output |
| InterpreterFacts.EvaluateReadsFreeVars | HumanaT/src/interpreter.py:33-48 | evaluation depends only on the variables the expression names |
| InterpreterFacts.UndefinedIsFree | HumanaT/src/interpreter.py:38-39 | a missing-variable error names a variable of the expression that the environment lacks |
| InterpreterFacts.BoundNeverUndefined | HumanaT/src/interpreter.py:38-39 | with all its variables bound, an expression never raises for a missing name |
| InterpreterFacts.StrLessTrichotomy | HumanaT/src/interpreter.py:44-46 | string `<` is a strict total order |
| InterpreterFacts.GreaterIsConverseOfLess | HumanaT/src/interpreter.py:43-46 | `a > b` gives the same result as `b < a`, including the error |
| InterpreterFacts.CompareTrichotomy | HumanaT/src/interpreter.py:43-48 | exactly one of less, equal and greater holds when ordering does not raise |
| InterpreterFacts.UnknownTags | HumanaT/src/interpreter.py:30-31 | a statement with an unknown tag raises `RuntimeError` and changes nothing, as does an expression with an unknown tag (lines 49-50) |
| InterpreterFacts.BoolComparesAsInt | HumanaT/src/interpreter.py:43-48 | in each comparison, on either side, `True` and `False` behave exactly as the ints 1 and 0 |
| InterpreterFacts.EvaluateNumber | HumanaT/src/interpreter.py:34-35 | a numeral evaluates to the number its digits denote; any other text raises `ValueError` |
| InterpreterFacts.EvaluateNumeral | HumanaT/src/interpreter.py:34-35 | the numeral of `n` evaluates to `n` |
| InterpreterFacts.EvaluateString | HumanaT/src/interpreter.py:36-37 | a quoted literal evaluates to the text between its quotes |
| InterpreterFacts.EvaluateIdent | HumanaT/src/interpreter.py:38-39 | a name evaluates to its bound value, and an unset name raises |
| InterpreterFacts.CompareSemantics | HumanaT/src/interpreter.py:43-48 | on two numbers (a bool counting as 0 or 1) the phrases compute `>`, `<` and `==` by value, on two strings by code-point order; a string and a number are never equal |
| InterpreterFacts.CompareInts | HumanaT/src/interpreter.py:43-48 | on two ints `is greater than`, `is less than` and `is equal to` are exactly `>`, `<` and `==` |
| InterpreterFacts.EvaluateCompare | HumanaT/src/interpreter.py:40-48 | a comparison evaluates the left operand, then the right, and compares the two values; the first error raised is the result |
| InterpreterFacts.AssignSemantics | HumanaT/src/interpreter.py:14-15 | `let` binds the name to the value and changes no other variable or the output; on an error nothing changes |
| InterpreterFacts.IfSemantics | HumanaT/src/interpreter.py:16-18 | an error in the condition ends `if` with the state unchanged; a true condition runs the body once; a false one changes nothing |
| InterpreterFacts.ReadAfterWrite | HumanaT/src/interpreter.py:14-15 | reading a just-assigned name gives the assigned expression's value |
| InterpreterFacts.PrintAppends | HumanaT/src/interpreter.py:12-13 | `say "text"` appends exactly `text` as one line and changes nothing else |
| InterpreterFacts.RepeatNone | HumanaT/src/interpreter.py:19-21 | a count of zero or below runs nothing |
| InterpreterFacts.RepeatSplits | HumanaT/src/interpreter.py:19-21 | `n + m` repetitions are `n` followed by `m` more, unless the first `n` raise |
| InterpreterFacts.RepeatIsRunAll | HumanaT/src/interpreter.py:19-21 | `repeat n times body` is running the program of `n` copies of the body |
| InterpreterFacts.WhileSemantics | HumanaT/src/interpreter.py:22-25 | an error in a `while` condition ends the loop with the state unchanged; a false condition ends it normally; a true one runs the whole body as a program and tests again, or raises if the body raised |
| InterpreterFacts.WhileFalseSkips | HumanaT/src/interpreter.py:22-25 | a `while` whose condition is false runs nothing |
| InterpreterFacts.WhileExitsOnFalse | HumanaT/src/interpreter.py:22-25 | a `while` that ends normally leaves its condition false |
| InterpreterFacts.ExecBlockIsRunAll | HumanaT/src/interpreter.py:24-25 | one pass over a loop body is running its statements as a program |
| InterpreterFacts.RunAllOne | HumanaT/src/interpreter.py:7-9 | the empty program changes nothing, and a one-statement program is that statement |
| InterpreterFacts.RunAllSplits | HumanaT/src/interpreter.py:7-9 | running `a + b` is running `a`, then `b` on the state `a` left, unless `a` raised |
| InterpreterFacts.ExecFuelMonotone | HumanaT/src/interpreter.py:22-25 | more fuel changes no outcome that did not run out of fuel |
| InterpreterFacts.RepeatFuelMonotone | HumanaT/src/interpreter.py:19-21 | more fuel changes no repetition that did not run out |
| InterpreterFacts.WhileFuelMonotone | HumanaT/src/interpreter.py:22-25 | more fuel changes no loop that did not run out |
| InterpreterFacts.BlockFuelMonotone | HumanaT/src/interpreter.py:24-25 | more fuel changes no loop-body pass that did not run out |
| InterpreterFacts.DialectsAgree | HumanaT/src/humanat.py:135-151 | the two interpreter copies behave identically on statements without `functionStmt` or `returnStmt` |
| InterpreterFacts.RepeatDialectsAgree | HumanaT/src/humanat.py:143-145 | the copies agree on repetitions of such statements |
| InterpreterFacts.WhileDialectsAgree | HumanaT/src/humanat.py:146-149 | the copies agree on `while` loops of such statements |
| InterpreterFacts.BlockDialectsAgree | HumanaT/src/humanat.py:148-149 | the copies agree on passes over such loop bodies |
| InterpreterFacts.ScriptRejectsFunctions | HumanaT/src/interpreter.py:26-31 | `functionStmt` and `returnStmt` are unknown statements to the copy in humanat.py, and `functionStmt` is accepted by interpreter.py |
| Pipeline.RunCode | HumanaT/src/humanat.py:172-177 | the program is parsed before it runs, so an error other than a run-time error leaves nothing printed and no variable set |
| Pipeline.RunScript | HumanaT/src/humanat.py:172-177 | `run(code)` as written never prints a line or sets a variable, and the only error it raises is `SyntaxError` |
| Pipeline.RunScriptNeverRuns | HumanaT/src/humanat.py:172-177 | `run(code)` does nothing on text without tokens, and otherwise raises `SyntaxError` on the first token before printing anything |
| Pipeline.RunScriptFailsOnOrdinaryToken | HumanaT/src/humanat.py:172-177 | the token `run(code)` fails on is an IDENTIFIER, NUMBER or STRING, never a KEYWORD |

## Left out

- The `humanat.py` copy of `match` (line 121) also accepts a token whose value is `None`. Tokens always carry text, so this disjunct never fires, and one `Match` models both copies.
- `\d` and `\w` are restricted to ASCII digits, letters and `_`. Python's classes also accept other Unicode digits and letters.
- Interpreter.Exec: its own contract states only that output grows and that only run-time errors are raised. The effect of each statement is stated by `InterpreterFacts.PrintAppends`, `AssignSemantics`, `IfSemantics`, `RepeatIsRunAll` and `WhileSemantics`.
- Interpreter.Repeat: its own contract states only output growth and run-time errors. That it runs the body `n` times in a row is `InterpreterFacts.RepeatIsRunAll` and `RepeatSplits`.
- Interpreter.RunWhile: its own contract states only output growth and run-time errors. The loop's unrolling is `InterpreterFacts.WhileSemantics`, and its exit condition is `WhileExitsOnFalse`.
- Interpreter.ExecBlock: its own contract states only output growth and run-time errors. That a pass runs the body as a program is `InterpreterFacts.ExecBlockIsRunAll`.
- Interpreter.RunAll: its own contract states only output growth and run-time errors. That the statements run in order, each on the state the previous one left, is `InterpreterFacts.RunAllOne` and `RunAllSplits`.
- Interpreter.Run: its own contract states only the run-time error kinds and the empty program. That it runs the program from the empty state is the definition, and the sequencing is `InterpreterFacts.RunAllOne` and `RunAllSplits`.
- Decimal.ParseInt: `int()` also accepts signs, surrounding whitespace, `_` separators and non-ASCII digits. Only ASCII digit runs reach it from a NUMBER token, so the model reads ASCII digit strings only.
- Decimal.ParseInt: does not model the limit on the length of decimal strings that CPython 3.11 and later (and security releases of 3.7-3.10) place on `int()`. By default this raises `ValueError` above 4300 digits. The limit depends on the Python version and can be changed at run time with `sys.set_int_max_str_digits` or `PYTHONINTMAXSTRDIGITS`. The model gives the value of numerals of any length.
- Python's recursion limit counts every frame on the stack. The model counts only the nesting depth of `expression()` calls, starting from 1000.
- `functionStmt` stores the statement in a functions table that nothing reads. `returnStmt` returns a value that every caller discards. The model evaluates the returned expression for its errors and keeps no table.
- `print` is modelled as appending a line to the state's output list. Console I/O itself is not modelled.
- Exception messages are not modelled. An error records only its kind and, for `SyntaxError`, the token.
- A Python `while` loop can run forever. In the model each pass of the body costs one unit of fuel, and running out gives `OutOfFuel`. `InterpreterFacts.ExecFuelMonotone` shows that fuel only cuts off loops that have not ended.
- The demo program at `humanat.py:179-191` is not modelled. It also uses `+`, which the grammar does not have.
- The round trip is proved on token lists, from `Layout.RenderProgram`. It is not proved on source text run through the corrected lexer.
- `consume` compares the expected text only when it is truthy, so an empty expected text would be ignored. Every call in the source passes a non-empty reserved word or none, so `Option` models it.

## Findings

| source | as written | input that shows it | evidently intended | confidence | as-written member | corrected member |
|---|---|---|---|---|---|---|
| HumanaT/src/lexer.py:17-23 | IDENTIFIER is listed before KEYWORD, so `[a-zA-Z_]\w*` wins at every reserved word and no KEYWORD token is ever produced | `tokenize("say")` gives IDENTIFIER `say`, EOF | reserved words come out as KEYWORD tokens | high; not executed | LexerFacts.SayAsWritten | LexerFacts.ReservedWordAt |
| HumanaT/src/parser.py:14-26 | `statement()` uses `match` on the reserved word and does not consume it, so each production starts on that word and rejects it | the tokens KEYWORD `say`, STRING `"hi"`, EOF raise `SyntaxError` on `say` | consume the reserved word, then run the production | high; not executed | ParserFacts.StatementAsWritten | RoundTrip.StmtRoundTrip |
| HumanaT/src/parser.py:66-80 | a comparison branch calls `expression()` again on the comparison phrase it just matched, so it never advances and recurses until `RecursionError` | the tokens KEYWORD `is less than`, EOF | `primary [comparison-phrase primary]`, consuming the phrase | high; not executed | ParserFacts.ComparisonNeverReturns | RoundTrip.ExprRoundTrip |

=== FILE: ast.dfy ===
/** The syntax tree the parser builds. The source represents nodes as
    tagged tuples (`('printStmt', value)`, `('number', digits)`, ...); each
    tag becomes a constructor here, and the tags the interpreter accepts but
    no production builds keep a constructor of their own. */
module Ast {

  /** The three comparison phrases. */
  datatype CompareOp = Greater | Less | Equal

  /** The reserved phrase of each comparison, also its node tag. */
  function OpWord(op: CompareOp): string {
    match op
    case Greater => "is greater than"
    case Less => "is less than"
    case Equal => "is equal to"
  }

  datatype Expr =
    | NumberLit(digits: string)                          // ('number', value)
    | StringLit(literal: string)                         // ('string', value), quotes kept
    | Ident(name: string)                                // ('identifier', value)
    | Compare(op: CompareOp, left: Expr, right: Expr)    // (OpWord(op), left, right)
    | UnknownExpr(tag: string)                           // any other tag

  datatype Stmt =
    | Print(literal: string)                             // ('printStmt', value), quotes kept
    | Assign(name: string, value: Expr)                  // ('assignStmt', name, expr)
    | If(cond: Expr, body: Stmt)                         // ('ifStmt', cond, stmt)
    | Loop(count: int, body: Stmt)                       // ('loopStmt', n, stmt)
    | While(cond: Expr, block: seq<Stmt>)                // ('whileStmt', cond, [stmt, ...])
    | FunctionDef(name: string)                          // ('functionStmt', name, ...)
    | Return(value: Expr)                                // ('returnStmt', expr)
    | UnknownStmt(tag: string)                           // any other tag
}

=== FILE: base.dfy ===
/** Shared vocabulary of the pipeline: optional values, the Python exceptions
    the pipeline can raise (as values), and a failure-compatible result type. */
module Base {
  import opened Lexer

  datatype Option<+T> = None | Some(value: T)

  /** The exceptions raised by the parser and the interpreter. Message texts
      are not modelled; a syntax error keeps the offending token. */
  datatype Error =
    | SyntaxError(token: Token)       // parser: unexpected token
    | IndexError                      // `peek` past the end of the token list
    | RecursionError                  // Python's call-depth limit exceeded
    | ValueError(text: string)        // `int()` of a string that is not a decimal numeral
    | UndefinedVariable(name: string) // `KeyError` on an unbound name
    | TypeError                       // `<` or `>` between a string and a number
    | UnknownNode                     // `RuntimeError` on an unknown statement or expression tag
    | OutOfFuel                       // the model's bound on `while` iterations ran out

  datatype Result<+T> = Success(value: T) | Failure(error: Error) {
    predicate IsFailure() {
      Failure?
    }

    function PropagateFailure<U>(): Result<U>
      requires Failure?
    {
      Failure(error)
    }

    function Extract(): T
      requires Success?
    {
      value
    }
  }
}

=== FILE: decimal.dfy ===
/** Python's `int()` on the text of a NUMBER token, and its inverse `str()`,
    restricted to ASCII decimal numerals. */
module Decimal {
  import opened Base
  import opened Lexer

  /** Every character of `d` is an ASCII digit. */
  predicate AllDigits(d: string) {
    forall i :: 0 <= i < |d| ==> IsDigit(d[i])
  }

  function DigitValue(c: char): (v: nat)
    requires IsDigit(c)
    ensures v < 10
  {
    (c as int) - ('0' as int)
  }

  function DigitChar(v: nat): (c: char)
    requires v < 10
    ensures IsDigit(c) && DigitValue(c) == v
  {
    ('0' as int + v) as char
  }

  /** The number a string of decimal digits denotes, most significant first. */
  function ValueOf(d: string): nat
    requires AllDigits(d)
  {
    if |d| == 0 then 0 else 10 * ValueOf(d[..|d| - 1]) + DigitValue(d[|d| - 1])
  }

  /** `int(d)`: the value of a non-empty digit string; `ValueError` otherwise. */
  function ParseInt(d: string): (r: Result<int>)
    ensures r.Success? <==> 0 < |d| && AllDigits(d)
    ensures r.Success? ==> 0 <= r.value
    ensures r.Failure? ==> r.error == ValueError(d)
  {
    if 0 < |d| && AllDigits(d) then Success(ValueOf(d)) else Failure(ValueError(d))
  }

  /** `str(n)`: the shortest decimal numeral of `n`. */
  function ToDecimal(n: nat): (d: string)
    ensures 0 < |d| && AllDigits(d)
    ensures 1 < |d| ==> d[0] != '0'
  {
    if n < 10 then [DigitChar(n)] else ToDecimal(n / 10) + [DigitChar(n % 10)]
  }

  /** A numeral without superfluous leading zeros. */
  predicate Canonical(d: string) {
    0 < |d| && AllDigits(d) && (1 < |d| ==> d[0] != '0')
  }

  /** Reading back a written number gives the number. */
  lemma {:induction false} ValueOfToDecimal(n: nat)
    ensures ValueOf(ToDecimal(n)) == n
  {
    if n >= 10 {
      var d := ToDecimal(n);
      assert d[..|d| - 1] == ToDecimal(n / 10);
      ValueOfToDecimal(n / 10);
    }
  }

  /** `int(str(n)) == n` */
  lemma ParseToDecimal(n: nat)
    ensures ParseInt(ToDecimal(n)) == Success(n)
  {
    ValueOfToDecimal(n);
  }

  /** A canonical numeral of two or more digits denotes at least 10. */
  lemma {:induction false} LeadingDigitBound(d: string)
    requires Canonical(d) && 1 < |d|
    ensures ValueOf(d) >= 10
  {
    var init := d[..|d| - 1];
    assert init[0] == d[0];
    if 2 < |d| {
      LeadingDigitBound(init);
    } else {
      assert ValueOf(init) == DigitValue(init[0]) + 10 * ValueOf(init[..0]);
    }
  }

  /** `str(int(d)) == d` for canonical numerals. */
  lemma {:induction false} ToDecimalValueOf(d: string)
    requires Canonical(d)
    ensures ToDecimal(ValueOf(d)) == d
  {
    if |d| > 1 {
      var init := d[..|d| - 1];
      assert init[0] == d[0];
      LeadingDigitBound(d);
      if 1 < |init| {
        LeadingDigitBound(init);
      }
      ToDecimalValueOf(init);
      assert d == init + [d[|d| - 1]];
    }
  }
}

=== FILE: interpreter.dfy ===
/** The tree-walking interpreter of HumanaT/src/interpreter.py and its copy
    in humanat.py:126-170, over Python's int, str and bool values. The
    console is an output list; a `while` loop is bounded by fuel. */
module Interpreter {
  import opened Base
  import opened Ast
  import opened Decimal

  datatype Value = IntV(i: int) | StrV(s: string) | BoolV(b: bool)

  /** The variables and the lines printed so far. */
  datatype State = State(env: map<string, Value>, out: seq<string>)

  const EmptyState: State := State(map[], [])

  /** interpreter.py accepts `functionStmt` and `returnStmt`; the copy in
      humanat.py does not. */
  datatype Dialect = ModuleInterpreter | ScriptInterpreter

  /** How a statement ends: normally, or by an exception, with the state at
      that point (lines already printed stay printed). */
  datatype Outcome = Normal(st: State) | Abrupt(st: State, error: Error)

  /** The errors that running a parsed program can raise: `int()`'s
      `ValueError`, a `KeyError` for an unset variable, `TypeError`,
      `RuntimeError` for an unknown node, and the fuel bound. Never one of
      the parser's errors. */
  predicate RuntimeError(e: Error) {
    e.ValueError? || e.UndefinedVariable? || e == TypeError || e == UnknownNode || e == OutOfFuel
  }

  /** `s[1:-1]`: the text without its first and last characters. */
  function Unquote(s: string): (r: string)
    ensures 2 <= |s| ==> s == [s[0]] + r + [s[|s| - 1]]
    ensures |s| < 2 ==> r == ""
  {
    if |s| < 2 then "" else s[1..|s| - 1]
  }

  /** Python truthiness: of the values a HumanaT program can build, the
      false ones are `0`, `''` and `False`. */
  function Truthy(v: Value): (r: bool)
    ensures r <==> v != IntV(0) && v != StrV("") && v != BoolV(false)
  {
    match v
    case IntV(i) => i != 0
    case StrV(s) => s != ""
    case BoolV(b) => b
  }

  /** `bool` is a subclass of `int`: a value that takes part in arithmetic
      comparison, and its integer. */
  predicate IsNumeric(v: Value) {
    v.IntV? || v.BoolV?
  }

  /** `True` counts as 1 and `False` as 0. */
  function NumberOf(v: Value): (n: int)
    requires IsNumeric(v)
    ensures v.IntV? ==> n == v.i
    ensures v.BoolV? ==> 0 <= n <= 1 && (n == 1 <==> v.b)
  {
    if v.IntV? then v.i else if v.b then 1 else 0
  }

  /** Python's `<` on strings: lexicographic by code point. A proper
      prefix comes first, and no string comes before itself. */
  function StrLess(a: string, b: string): (r: bool)
    ensures a < b ==> r
    ensures r ==> a != b
    decreases |a|
  {
    if |a| == 0 then 0 < |b|
    else if |b| == 0 then false
    else if a[0] != b[0] then a[0] < b[0]
    else StrLess(a[1..], b[1..])
  }

  /** `left > right`, `left < right`, `left == right` on Python values.
      Ordering a string against a number raises `TypeError`; they are
      never equal. */
  function CompareValues(op: CompareOp, left: Value, right: Value): (r: Result<Value>)
    ensures r.Success? ==> r.value.BoolV?
    ensures r.Failure? <==> op != Equal && IsNumeric(left) != IsNumeric(right)
    ensures r.Failure? ==> r.error == TypeError
  {
    if IsNumeric(left) && IsNumeric(right) then
      var a, b := NumberOf(left), NumberOf(right);
      Success(BoolV(match op case Greater => a > b case Less => a < b case Equal => a == b))
    else if left.StrV? && right.StrV? then
      var a, b := left.s, right.s;
      Success(BoolV(match op case Greater => StrLess(b, a) case Less => StrLess(a, b) case Equal => a == b))
    else if op == Equal then
      Success(BoolV(false))
    else
      Failure(TypeError)
  }

  /** `evaluate(expression)`: the environment is read, never written. */
  function Evaluate(e: Expr, env: map<string, Value>): (r: Result<Value>)
    ensures r.Success? && e.NumberLit? ==> r.value.IntV? && 0 <= r.value.i
    ensures r.Success? && e.StringLit? ==> r.value.StrV? && |r.value.s| == if |e.literal| < 2 then 0 else |e.literal| - 2
    ensures r.Success? && e.Compare? ==> r.value.BoolV?
    ensures r.Failure? ==> r.error.ValueError? || r.error.UndefinedVariable? || r.error == TypeError || r.error == UnknownNode
  {
    match e
    case NumberLit(digits) =>
      var n :- ParseInt(digits);
      Success(IntV(n))
    case StringLit(literal) => Success(StrV(Unquote(literal)))
    case Ident(name) =>
      if name in env then Success(env[name]) else Failure(UndefinedVariable(name))
    case Compare(op, left, right) =>
      var l :- Evaluate(left, env);
      var r :- Evaluate(right, env);
      CompareValues(op, l, r)
    case UnknownExpr(_) => Failure(UnknownNode)
  }

  /** `execute(statement)` with at most `fuel` iterations of any one
      `while` loop. */
  function Exec(d: Dialect, s: Stmt, st: State, fuel: nat): (o: Outcome)
    ensures st.out <= o.st.out
    ensures o.Abrupt? ==> RuntimeError(o.error)
    decreases fuel, s, 1, 0
  {
    match s
    case Print(literal) => Normal(st.(out := st.out + [Unquote(literal)]))
    case Assign(name, value) =>
      var v := Evaluate(value, st.env);
      if v.Failure? then Abrupt(st, v.error) else Normal(st.(env := st.env[name := v.value]))
    case If(cond, body) =>
      var c := Evaluate(cond, st.env);
      if c.Failure? then Abrupt(st, c.error)
      else if Truthy(c.value) then Exec(d, body, st, fuel)
      else Normal(st)
    case Loop(count, body) => Repeat(d, body, count, st, fuel)
    case While(_, _) => RunWhile(d, s, st, fuel)
    case FunctionDef(_) =>
      // the table of defined functions is written but never read
      if d == ModuleInterpreter then Normal(st) else Abrupt(st, UnknownNode)
    case Return(value) =>
      // the returned value is discarded by every caller
      if d == ScriptInterpreter then Abrupt(st, UnknownNode)
      else
        var v := Evaluate(value, st.env);
        if v.Failure? then Abrupt(st, v.error) else Normal(st)
    case UnknownStmt(_) => Abrupt(st, UnknownNode)
  }

  /** `for _ in range(n): execute(body)` */
  function Repeat(d: Dialect, body: Stmt, n: int, st: State, fuel: nat): (o: Outcome)
    ensures st.out <= o.st.out
    ensures o.Abrupt? ==> RuntimeError(o.error)
    decreases fuel, body, 2, n
  {
    if n <= 0 then Normal(st)
    else
      var o := Exec(d, body, st, fuel);
      if o.Abrupt? then o else Repeat(d, body, n - 1, o.st, fuel)
  }

  /** `while evaluate(cond): for stmt in body: execute(stmt)` for the
      `while` statement `w`; each pass that runs the body costs one unit of
      fuel. */
  function RunWhile(d: Dialect, w: Stmt, st: State, fuel: nat): (o: Outcome)
    requires w.While?
    ensures st.out <= o.st.out
    ensures o.Abrupt? ==> RuntimeError(o.error)
    decreases fuel, w, 0, 0
  {
    var c := Evaluate(w.cond, st.env);
    if c.Failure? then Abrupt(st, c.error)
    else if !Truthy(c.value) then Normal(st)
    else if fuel == 0 then Abrupt(st, OutOfFuel)
    else
      var o := ExecBlock(d, w, 0, st, fuel - 1);
      if o.Abrupt? then o else RunWhile(d, w, o.st, fuel - 1)
  }

  /** One pass over the body of the `while` statement `w`, from its `i`-th
      statement on. */
  function ExecBlock(d: Dialect, w: Stmt, i: nat, st: State, fuel: nat): (o: Outcome)
    requires w.While? && i <= |w.block|
    ensures st.out <= o.st.out
    ensures o.Abrupt? ==> RuntimeError(o.error)
    decreases fuel, w, 0, |w.block| - i
  {
    if i == |w.block| then Normal(st)
    else
      var o := Exec(d, w.block[i], st, fuel);
      if o.Abrupt? then o else ExecBlock(d, w, i + 1, o.st, fuel)
  }

  /** `run()`: the statements in order, each on the state the previous one
      left. */
  function RunAll(d: Dialect, prog: seq<Stmt>, st: State, fuel: nat): (o: Outcome)
    ensures st.out <= o.st.out
    ensures o.Abrupt? ==> RuntimeError(o.error)
  {
    if |prog| == 0 then Normal(st)
    else
      var o := Exec(d, prog[0], st, fuel);
      if o.Abrupt? then o else RunAll(d, prog[1..], o.st, fuel)
  }

  /** `Interpreter(statements).run()` from an empty environment. */
  function Run(d: Dialect, prog: seq<Stmt>, fuel: nat): (o: Outcome)
    ensures o.Abrupt? ==> RuntimeError(o.error)
    ensures prog == [] ==> o == Normal(EmptyState)
  {
    RunAll(d, prog, EmptyState, fuel)
  }
}

=== FILE: interpreter_facts.dfy ===
/** What the interpreter of HumanaT/src/interpreter.py guarantees about
    evaluation, assignment, the two loops, running a program in sequence,
    the fuel bound and the two copies of the interpreter. */
module InterpreterFacts {
  import opened Base
  import opened Ast
  import opened Decimal
  import opened Interpreter

  /** The variables an expression reads. */
  function FreeVars(e: Expr): set<string> {
    match e
    case Ident(name) => {name}
    case Compare(_, left, right) => FreeVars(left) + FreeVars(right)
    case _ => {}
  }

  /** Evaluation reads only the variables that occur in the expression:
      two environments that agree on them give the same result. */
  lemma {:induction false} EvaluateReadsFreeVars(e: Expr, env1: map<string, Value>, env2: map<string, Value>)
    requires forall x :: x in FreeVars(e) ==> (x in env1 <==> x in env2)
    requires forall x :: x in FreeVars(e) && x in env1 ==> env1[x] == env2[x]
    ensures Evaluate(e, env1) == Evaluate(e, env2)
  {
    if e.Compare? {
      EvaluateReadsFreeVars(e.left, env1, env2);
      EvaluateReadsFreeVars(e.right, env1, env2);
    }
  }

  /** A name is reported undefined only if the expression reads it and the
      environment lacks it. */
  lemma {:induction false} UndefinedIsFree(e: Expr, env: map<string, Value>)
    ensures Evaluate(e, env).Failure? && Evaluate(e, env).error.UndefinedVariable? ==>
      Evaluate(e, env).error.name in FreeVars(e) && Evaluate(e, env).error.name !in env
  {
    if e.Compare? {
      UndefinedIsFree(e.left, env);
      UndefinedIsFree(e.right, env);
    }
  }

  /** An expression whose variables are all bound never raises for a
      missing name. */
  lemma BoundNeverUndefined(e: Expr, env: map<string, Value>)
    requires FreeVars(e) <= env.Keys
    ensures Evaluate(e, env).Failure? ==> !Evaluate(e, env).error.UndefinedVariable?
  {
    UndefinedIsFree(e, env);
  }

  /** Python's string `<` is a strict total order: exactly one of `a < b`,
      `a == b`, `b < a` holds. */
  lemma {:induction false} StrLessTrichotomy(a: string, b: string)
    ensures StrLess(a, b) || a == b || StrLess(b, a)
    ensures !(StrLess(a, b) && StrLess(b, a))
    ensures StrLess(a, b) ==> a != b
    decreases |a|
  {
    if 0 < |a| && 0 < |b| && a[0] == b[0] {
      StrLessTrichotomy(a[1..], b[1..]);
      if a[1..] == b[1..] {
        assert a == [a[0]] + a[1..] && b == [b[0]] + b[1..];
      }
    }
  }

  /** `a > b` and `b < a` agree, and ordering a string against a number
      raises whichever way round it is written. */
  lemma GreaterIsConverseOfLess(a: Value, b: Value)
    ensures CompareValues(Greater, a, b) == CompareValues(Less, b, a)
  {
  }

  /** Exactly one of `a is less than b`, `a is equal to b`,
      `a is greater than b` is true, when the first does not raise. */
  lemma CompareTrichotomy(a: Value, b: Value)
    requires CompareValues(Less, a, b).Success?
    ensures var lt, eq, gt := CompareValues(Less, a, b).value.b, CompareValues(Equal, a, b).value.b, CompareValues(Greater, a, b).value.b;
      (lt || eq || gt) && !(lt && eq) && !(lt && gt) && !(eq && gt)
  {
    if a.StrV? && b.StrV? {
      StrLessTrichotomy(a.s, b.s);
    }
  }

  /** `is greater than`, `is less than` and `is equal to` compute Python's
      `>`, `<` and `==`: on numbers (a `bool` counting as 0 or 1) by value,
      on strings by code-point order; a string is never equal to a number. */
  lemma CompareSemantics(op: CompareOp, a: Value, b: Value)
    ensures IsNumeric(a) && IsNumeric(b) ==> CompareValues(op, a, b) == Success(BoolV(
      match op
      case Greater => NumberOf(a) > NumberOf(b)
      case Less => NumberOf(a) < NumberOf(b)
      case Equal => NumberOf(a) == NumberOf(b)))
    ensures a.StrV? && b.StrV? ==> CompareValues(op, a, b) == Success(BoolV(
      match op
      case Greater => StrLess(b.s, a.s)
      case Less => StrLess(a.s, b.s)
      case Equal => a.s == b.s))
    ensures IsNumeric(a) != IsNumeric(b) ==> CompareValues(Equal, a, b) == Success(BoolV(false))
  {
  }

  /** On two ints the three phrases are `>`, `<` and `==`. */
  lemma CompareInts(a: int, b: int)
    ensures CompareValues(Greater, IntV(a), IntV(b)) == Success(BoolV(a > b))
    ensures CompareValues(Less, IntV(a), IntV(b)) == Success(BoolV(a < b))
    ensures CompareValues(Equal, IntV(a), IntV(b)) == Success(BoolV(a == b))
  {
  }

  /** An expression or a statement whose tag the interpreter does not know
      raises `RuntimeError`, in both copies, and changes nothing. */
  lemma UnknownTags(d: Dialect, tag: string, env: map<string, Value>, st: State, fuel: nat)
    ensures Evaluate(UnknownExpr(tag), env) == Failure(UnknownNode)
    ensures Exec(d, UnknownStmt(tag), st, fuel) == Abrupt(st, UnknownNode)
  {
  }

  /** In a comparison `True` and `False` stand for the ints 1 and 0. */
  lemma BoolComparesAsInt(op: CompareOp, b: bool, i: int)
    ensures CompareValues(op, BoolV(b), IntV(i)) == CompareValues(op, IntV(if b then 1 else 0), IntV(i))
    ensures CompareValues(op, IntV(i), BoolV(b)) == CompareValues(op, IntV(i), IntV(if b then 1 else 0))
  {
  }

  /** A numeral evaluates to the number `int()` reads from it, and a text
      that is not a numeral raises `ValueError`. */
  lemma EvaluateNumber(digits: string, env: map<string, Value>)
    ensures Evaluate(NumberLit(digits), env) ==
      if 0 < |digits| && AllDigits(digits) then Success(IntV(ValueOf(digits))) else Failure(ValueError(digits))
  {
  }

  /** The numeral of `n` evaluates back to `n`. */
  lemma EvaluateNumeral(n: nat, env: map<string, Value>)
    ensures Evaluate(NumberLit(ToDecimal(n)), env) == Success(IntV(n))
  {
    ParseToDecimal(n);
  }

  /** A quoted literal evaluates to the text between its quotes. */
  lemma EvaluateString(text: string, env: map<string, Value>)
    ensures Evaluate(StringLit("\"" + text + "\""), env) == Success(StrV(text))
  {
    var lit := "\"" + text + "\"";
    assert lit[1..|lit| - 1] == text;
  }

  /** A name evaluates to its bound value; an unset name raises. */
  lemma EvaluateIdent(name: string, env: map<string, Value>)
    ensures Evaluate(Ident(name), env) ==
      if name in env then Success(env[name]) else Failure(UndefinedVariable(name))
  {
  }

  /** A comparison evaluates its left operand, then its right, and compares
      the two values; the first error raised is the result. */
  lemma EvaluateCompare(op: CompareOp, left: Expr, right: Expr, env: map<string, Value>)
    ensures var l, r := Evaluate(left, env), Evaluate(right, env);
      Evaluate(Compare(op, left, right), env) ==
        if l.Failure? then Failure(l.error)
        else if r.Failure? then Failure(r.error)
        else CompareValues(op, l.value, r.value)
  {
  }

  /** `if cond then body`: an error in the condition ends the statement with
      the state unchanged; a true condition runs the body once; a false one
      changes nothing. */
  lemma IfSemantics(d: Dialect, cond: Expr, body: Stmt, st: State, fuel: nat)
    ensures var o, c := Exec(d, If(cond, body), st, fuel), Evaluate(cond, st.env);
      && (c.Failure? ==> o == Abrupt(st, c.error))
      && (c.Success? && Truthy(c.value) ==> o == Exec(d, body, st, fuel))
      && (c.Success? && !Truthy(c.value) ==> o == Normal(st))
  {
  }

  /** `let name be value`: afterwards `name` holds the value, every other
      variable and the output are unchanged; on an error nothing changes. */
  lemma AssignSemantics(d: Dialect, name: string, value: Expr, st: State, fuel: nat)
    ensures var o := Exec(d, Assign(name, value), st, fuel);
      var v := Evaluate(value, st.env);
      && (o.Normal? <==> v.Success?)
      && (o.Normal? ==> name in o.st.env && o.st.env[name] == v.value)
      && (forall x :: x != name ==> (x in o.st.env <==> x in st.env))
      && (forall x :: x != name && x in st.env ==> o.st.env[x] == st.env[x])
      && o.st.out == st.out
      && (o.Abrupt? ==> o.st == st && o.error == v.error)
  {
  }

  /** Reading a variable just assigned gives the assigned value. */
  lemma ReadAfterWrite(d: Dialect, name: string, value: Expr, st: State, fuel: nat)
    requires Exec(d, Assign(name, value), st, fuel).Normal?
    ensures Evaluate(Ident(name), Exec(d, Assign(name, value), st, fuel).st.env) == Evaluate(value, st.env)
  {
  }

  /** `say "..."` appends the text between the quotes as one line. */
  lemma PrintAppends(d: Dialect, text: string, st: State, fuel: nat)
    ensures Exec(d, Print("\"" + text + "\""), st, fuel) == Normal(State(st.env, st.out + [text]))
  {
    var lit := "\"" + text + "\"";
    assert lit[1..|lit| - 1] == text;
  }

  /** `repeat n times` with `n <= 0` does nothing: `range(n)` is empty. */
  lemma RepeatNone(d: Dialect, body: Stmt, n: int, st: State, fuel: nat)
    requires n <= 0
    ensures Exec(d, Loop(n, body), st, fuel) == Normal(st)
  {
  }

  /** `n + m` repetitions are `n` repetitions followed by `m` more, unless
      the first `n` raise. */
  lemma {:induction false} RepeatSplits(d: Dialect, body: Stmt, n: nat, m: nat, st: State, fuel: nat)
    ensures var o := Repeat(d, body, n, st, fuel);
      Repeat(d, body, n + m, st, fuel) == if o.Abrupt? then o else Repeat(d, body, m, o.st, fuel)
    decreases n
  {
    if n > 0 {
      var o := Exec(d, body, st, fuel);
      if o.Normal? {
        RepeatSplits(d, body, n - 1, m, o.st, fuel);
      }
    }
  }

  /** `repeat n times body` runs the body `n` times in a row, as the
      program of `n` copies of it would. */
  lemma RepeatIsRunAll(d: Dialect, body: Stmt, n: nat, st: State, fuel: nat)
    ensures Exec(d, Loop(n, body), st, fuel) == RunAll(d, seq(n, _ => body), st, fuel)
  {
    RepeatRunsCopies(d, body, n, st, fuel);
  }

  lemma {:induction false} RepeatRunsCopies(d: Dialect, body: Stmt, n: nat, st: State, fuel: nat)
    ensures Repeat(d, body, n, st, fuel) == RunAll(d, seq(n, _ => body), st, fuel)
    decreases n
  {
    if n > 0 {
      var copies := seq(n, _ => body);
      assert copies[0] == body && copies[1..] == seq(n - 1, _ => body);
      var o := Exec(d, body, st, fuel);
      if o.Normal? {
        RepeatRunsCopies(d, body, n - 1, o.st, fuel);
      }
    }
  }

  /** One pass of `while cond do block end`: an error in the condition ends
      the loop with the state unchanged, a false condition ends it normally,
      and a true one runs the whole block as a program and tests again (each
      such pass costs one unit of fuel). */
  lemma WhileSemantics(d: Dialect, w: Stmt, st: State, fuel: nat)
    requires w.While?
    ensures var o, c := Exec(d, w, st, fuel), Evaluate(w.cond, st.env);
      && (c.Failure? ==> o == Abrupt(st, c.error))
      && (c.Success? && !Truthy(c.value) ==> o == Normal(st))
      && (c.Success? && Truthy(c.value) && fuel == 0 ==> o == Abrupt(st, OutOfFuel))
      && (c.Success? && Truthy(c.value) && 0 < fuel ==>
            var pass := RunAll(d, w.block, st, fuel - 1);
            o == if pass.Abrupt? then pass else RunWhile(d, w, pass.st, fuel - 1))
  {
    if 0 < fuel {
      ExecBlockIsRunAll(d, w, 0, st, fuel - 1);
      assert w.block[0..] == w.block;
    }
  }

  /** A `while` loop whose condition is false runs nothing. */
  lemma WhileFalseSkips(d: Dialect, w: Stmt, st: State, fuel: nat)
    requires w.While?
    requires Evaluate(w.cond, st.env).Success? && !Truthy(Evaluate(w.cond, st.env).value)
    ensures Exec(d, w, st, fuel) == Normal(st)
  {
  }

  /** A `while` loop that ends normally leaves its condition evaluating to
      a false value. */
  lemma {:induction false} WhileExitsOnFalse(d: Dialect, w: Stmt, st: State, fuel: nat)
    requires w.While? && RunWhile(d, w, st, fuel).Normal?
    ensures var c := Evaluate(w.cond, RunWhile(d, w, st, fuel).st.env);
      c.Success? && !Truthy(c.value)
    decreases fuel
  {
    var c := Evaluate(w.cond, st.env);
    if c.Success? && Truthy(c.value) && fuel > 0 {
      var o := ExecBlock(d, w, 0, st, fuel - 1);
      WhileExitsOnFalse(d, w, o.st, fuel - 1);
    }
  }

  /** One pass over a `while` body from its `i`-th statement is running
      those statements as a program. */
  lemma {:induction false} ExecBlockIsRunAll(d: Dialect, w: Stmt, i: nat, st: State, fuel: nat)
    requires w.While? && i <= |w.block|
    ensures ExecBlock(d, w, i, st, fuel) == RunAll(d, w.block[i..], st, fuel)
    decreases |w.block| - i
  {
    if i < |w.block| {
      var o := Exec(d, w.block[i], st, fuel);
      if o.Normal? {
        ExecBlockIsRunAll(d, w, i + 1, o.st, fuel);
        assert w.block[i..][1..] == w.block[i + 1..];
      }
    }
  }

  /** The empty program does nothing, and a one-statement program is that
      statement. With `RunAllSplits` this fixes `run()`: the statements run
      in list order, each on the state the previous one left. */
  lemma RunAllOne(d: Dialect, s: Stmt, st: State, fuel: nat)
    ensures RunAll(d, [], st, fuel) == Normal(st)
    ensures RunAll(d, [s], st, fuel) == Exec(d, s, st, fuel)
  {
  }

  /** Running `a + b` runs `a` and then, unless it raised, `b` on the state
      `a` left. */
  lemma {:induction false} RunAllSplits(d: Dialect, a: seq<Stmt>, b: seq<Stmt>, st: State, fuel: nat)
    ensures var o := RunAll(d, a, st, fuel);
      RunAll(d, a + b, st, fuel) == if o.Abrupt? then o else RunAll(d, b, o.st, fuel)
    decreases |a|
  {
    if 0 < |a| {
      assert (a + b)[0] == a[0] && (a + b)[1..] == a[1..] + b;
      var o := Exec(d, a[0], st, fuel);
      if o.Normal? {
        RunAllSplits(d, a[1..], b, o.st, fuel);
      }
    } else {
      assert a + b == b;
    }
  }

  /** The outcome of running out of fuel. */
  predicate Exhausted(o: Outcome) {
    o.Abrupt? && o.error == OutOfFuel
  }

  /** More fuel changes nothing once a statement finishes without running
      out: the fuel bound only cuts off loops that have not ended yet. */
  lemma {:induction false} ExecFuelMonotone(d: Dialect, s: Stmt, st: State, fuel: nat, more: nat)
    requires fuel <= more && !Exhausted(Exec(d, s, st, fuel))
    ensures Exec(d, s, st, more) == Exec(d, s, st, fuel)
    decreases fuel, s, 1, 0
  {
    match s
    case If(cond, body) =>
      var c := Evaluate(cond, st.env);
      if c.Success? && Truthy(c.value) {
        ExecFuelMonotone(d, body, st, fuel, more);
      }
    case Loop(count, body) =>
      RepeatFuelMonotone(d, body, count, st, fuel, more);
    case While(_, _) =>
      WhileFuelMonotone(d, s, st, fuel, more);
    case _ =>
  }

  lemma {:induction false} RepeatFuelMonotone(d: Dialect, body: Stmt, n: int, st: State, fuel: nat, more: nat)
    requires fuel <= more && !Exhausted(Repeat(d, body, n, st, fuel))
    ensures Repeat(d, body, n, st, more) == Repeat(d, body, n, st, fuel)
    decreases fuel, body, 2, n
  {
    if n > 0 {
      var o := Exec(d, body, st, fuel);
      ExecFuelMonotone(d, body, st, fuel, more);
      if o.Normal? {
        RepeatFuelMonotone(d, body, n - 1, o.st, fuel, more);
      }
    }
  }

  lemma {:induction false} WhileFuelMonotone(d: Dialect, w: Stmt, st: State, fuel: nat, more: nat)
    requires w.While? && fuel <= more && !Exhausted(RunWhile(d, w, st, fuel))
    ensures RunWhile(d, w, st, more) == RunWhile(d, w, st, fuel)
    decreases fuel, w, 0, 0
  {
    var c := Evaluate(w.cond, st.env);
    if c.Success? && Truthy(c.value) && fuel > 0 {
      var o := ExecBlock(d, w, 0, st, fuel - 1);
      BlockFuelMonotone(d, w, 0, st, fuel - 1, more - 1);
      if o.Normal? {
        WhileFuelMonotone(d, w, o.st, fuel - 1, more - 1);
      }
    }
  }

  lemma {:induction false} BlockFuelMonotone(d: Dialect, w: Stmt, i: nat, st: State, fuel: nat, more: nat)
    requires w.While? && i <= |w.block| && fuel <= more && !Exhausted(ExecBlock(d, w, i, st, fuel))
    ensures ExecBlock(d, w, i, st, more) == ExecBlock(d, w, i, st, fuel)
    decreases fuel, w, 0, |w.block| - i
  {
    if i < |w.block| {
      var o := Exec(d, w.block[i], st, fuel);
      ExecFuelMonotone(d, w.block[i], st, fuel, more);
      if o.Normal? {
        BlockFuelMonotone(d, w, i + 1, o.st, fuel, more);
      }
    }
  }

  /** A statement that neither defines a function nor returns, at any
      depth. */
  predicate Plain(s: Stmt) {
    match s
    case If(_, body) => Plain(body)
    case Loop(_, body) => Plain(body)
    case While(_, block) => forall i :: 0 <= i < |block| ==> Plain(block[i])
    case FunctionDef(_) => false
    case Return(_) => false
    case _ => true
  }

  /** The interpreter in interpreter.py and the copy in humanat.py, which
      lacks `functionStmt` and `returnStmt`, run every other statement
      alike. */
  lemma {:induction false} DialectsAgree(s: Stmt, st: State, fuel: nat)
    requires Plain(s)
    ensures Exec(ModuleInterpreter, s, st, fuel) == Exec(ScriptInterpreter, s, st, fuel)
    decreases fuel, s, 1, 0
  {
    match s
    case If(cond, body) =>
      DialectsAgree(body, st, fuel);
    case Loop(count, body) =>
      RepeatDialectsAgree(body, count, st, fuel);
    case While(_, _) =>
      WhileDialectsAgree(s, st, fuel);
    case _ =>
  }

  lemma {:induction false} RepeatDialectsAgree(body: Stmt, n: int, st: State, fuel: nat)
    requires Plain(body)
    ensures Repeat(ModuleInterpreter, body, n, st, fuel) == Repeat(ScriptInterpreter, body, n, st, fuel)
    decreases fuel, body, 2, n
  {
    if n > 0 {
      DialectsAgree(body, st, fuel);
      var o := Exec(ModuleInterpreter, body, st, fuel);
      if o.Normal? {
        RepeatDialectsAgree(body, n - 1, o.st, fuel);
      }
    }
  }

  lemma {:induction false} WhileDialectsAgree(w: Stmt, st: State, fuel: nat)
    requires w.While? && Plain(w)
    ensures RunWhile(ModuleInterpreter, w, st, fuel) == RunWhile(ScriptInterpreter, w, st, fuel)
    decreases fuel, w, 0, 0
  {
    var c := Evaluate(w.cond, st.env);
    if c.Success? && Truthy(c.value) && fuel > 0 {
      BlockDialectsAgree(w, 0, st, fuel - 1);
      var o := ExecBlock(ModuleInterpreter, w, 0, st, fuel - 1);
      if o.Normal? {
        WhileDialectsAgree(w, o.st, fuel - 1);
      }
    }
  }

  lemma {:induction false} BlockDialectsAgree(w: Stmt, i: nat, st: State, fuel: nat)
    requires w.While? && Plain(w) && i <= |w.block|
    ensures ExecBlock(ModuleInterpreter, w, i, st, fuel) == ExecBlock(ScriptInterpreter, w, i, st, fuel)
    decreases fuel, w, 0, |w.block| - i
  {
    if i < |w.block| {
      DialectsAgree(w.block[i], st, fuel);
      var o := Exec(ModuleInterpreter, w.block[i], st, fuel);
      if o.Normal? {
        BlockDialectsAgree(w, i + 1, o.st, fuel);
      }
    }
  }

  /** `functionStmt` and `returnStmt` are where the two copies differ:
      humanat.py rejects them as unknown statements. */
  lemma ScriptRejectsFunctions(name: string, value: Expr, st: State, fuel: nat)
    ensures Exec(ScriptInterpreter, FunctionDef(name), st, fuel) == Abrupt(st, UnknownNode)
    ensures Exec(ScriptInterpreter, Return(value), st, fuel) == Abrupt(st, UnknownNode)
    ensures Exec(ModuleInterpreter, FunctionDef(name), st, fuel) == Normal(st)
  {
  }
}

=== FILE: layout.dfy ===
/** HumanaT programs of the grammar, rendered as the token list the lexer
    produces for them, and where such a rendering sits in a token list. */
module Layout {
  import opened Lexer
  import opened Ast
  import opened Decimal
  import opened Parser

  function Kw(w: string): Token {
    Token(Keyword, w)
  }

  /** An expression that is a single token. */
  predicate PrimaryExpr(e: Expr) {
    e.NumberLit? || e.StringLit? || e.Ident?
  }

  function PrimaryToken(e: Expr): (t: Token)
    requires PrimaryExpr(e)
    ensures IsPrimary(t) && PrimaryNode(t) == e
  {
    match e
    case NumberLit(d) => Token(Number, d)
    case StringLit(l) => Token(String, l)
    case Ident(n) => Token(Identifier, n)
  }

  /** The expressions of the grammar: a primary, or two primaries compared. */
  predicate GrammarExpr(e: Expr) {
    PrimaryExpr(e) || (e.Compare? && PrimaryExpr(e.left) && PrimaryExpr(e.right))
  }

  /** The statements of the grammar: the five productions with grammar
      expressions and non-negative loop counts. */
  predicate GrammarStmt(s: Stmt) {
    match s
    case Print(_) => true
    case Assign(_, value) => GrammarExpr(value)
    case If(cond, body) => GrammarExpr(cond) && GrammarStmt(body)
    case Loop(count, body) => 0 <= count && GrammarStmt(body)
    case While(cond, block) => GrammarExpr(cond) && forall i :: 0 <= i < |block| ==> GrammarStmt(block[i])
    case _ => false
  }

  predicate GrammarBlock(ss: seq<Stmt>) {
    forall i :: 0 <= i < |ss| ==> GrammarStmt(ss[i])
  }

  // ---------------------------------------------------------------------
  // Rendering a syntax tree as the tokens the lexer would produce

  function RenderExpr(e: Expr): (ts: seq<Token>)
    requires GrammarExpr(e)
  {
    if PrimaryExpr(e) then [PrimaryToken(e)]
    else [PrimaryToken(e.left), Kw(OpWord(e.op)), PrimaryToken(e.right)]
  }

  function Render(s: Stmt): seq<Token>
    requires GrammarStmt(s)
    decreases s, 0
  {
    match s
    case Print(literal) => [Kw("say"), Token(String, literal)]
    case Assign(name, value) => [Kw("let"), Token(Identifier, name), Kw("be")] + RenderExpr(value)
    case If(cond, body) => [Kw("if")] + RenderExpr(cond) + [Kw("then")] + Render(body)
    case Loop(count, body) => [Kw("repeat"), Token(Number, ToDecimal(count)), Kw("times")] + Render(body)
    case While(cond, block) => [Kw("while")] + RenderExpr(cond) + [Kw("do")] + RenderBlock(block) + [Kw("end")]
  }

  function RenderBlock(ss: seq<Stmt>): seq<Token>
    requires GrammarBlock(ss)
    decreases ss, 1
  {
    if |ss| == 0 then [] else Render(ss[0]) + RenderBlock(ss[1..])
  }

  /** The tokens of a whole program, with the EOF token at the end. */
  function RenderProgram(prog: seq<Stmt>): seq<Token>
    requires GrammarBlock(prog)
  {
    RenderBlock(prog) + [EofToken]
  }

  // ---------------------------------------------------------------------
  // Where a rendered tree sits in a token list

  /** The number of tokens an expression, a statement, a block renders to. */
  function ExprWidth(e: Expr): nat
    requires GrammarExpr(e)
  {
    if PrimaryExpr(e) then 1 else 3
  }

  function Width(s: Stmt): nat
    requires GrammarStmt(s)
    decreases s, 0
  {
    match s
    case Print(_) => 2
    case Assign(_, value) => 3 + ExprWidth(value)
    case If(cond, body) => 2 + ExprWidth(cond) + Width(body)
    case Loop(_, body) => 3 + Width(body)
    case While(cond, block) => 3 + ExprWidth(cond) + BlockWidth(block)
  }

  function BlockWidth(ss: seq<Stmt>): nat
    requires GrammarBlock(ss)
    decreases ss, 1
  {
    if |ss| == 0 then 0 else Width(ss[0]) + BlockWidth(ss[1..])
  }

  /** The tokens of `e` occur in `tokens` from `p` on. */
  predicate ExprAt(tokens: seq<Token>, p: nat, e: Expr)
    requires GrammarExpr(e)
  {
    if PrimaryExpr(e) then p < |tokens| && tokens[p] == PrimaryToken(e)
    else
      && p + 2 < |tokens| && tokens[p] == PrimaryToken(e.left)
      && tokens[p + 1] == Kw(OpWord(e.op)) && tokens[p + 2] == PrimaryToken(e.right)
  }

  /** The tokens of `s` occur in `tokens` from `p` on. */
  predicate StmtAt(tokens: seq<Token>, p: nat, s: Stmt)
    requires GrammarStmt(s)
    decreases s, 0
  {
    match s
    case Print(literal) =>
      p + 1 < |tokens| && tokens[p] == Kw("say") && tokens[p + 1] == Token(String, literal)
    case Assign(name, value) =>
      && p + 2 < |tokens| && tokens[p] == Kw("let") && tokens[p + 1] == Token(Identifier, name)
      && tokens[p + 2] == Kw("be") && ExprAt(tokens, p + 3, value)
    case If(cond, body) =>
      var q := p + 1 + ExprWidth(cond);
      && p < |tokens| && tokens[p] == Kw("if") && ExprAt(tokens, p + 1, cond)
      && q < |tokens| && tokens[q] == Kw("then") && StmtAt(tokens, q + 1, body)
    case Loop(count, body) =>
      && p + 2 < |tokens| && tokens[p] == Kw("repeat") && tokens[p + 1] == Token(Number, ToDecimal(count))
      && tokens[p + 2] == Kw("times") && StmtAt(tokens, p + 3, body)
    case While(cond, block) =>
      var q := p + 1 + ExprWidth(cond);
      var e := q + 1 + BlockWidth(block);
      && p < |tokens| && tokens[p] == Kw("while") && ExprAt(tokens, p + 1, cond)
      && q < |tokens| && tokens[q] == Kw("do") && BlockAt(tokens, q + 1, block)
      && e < |tokens| && tokens[e] == Kw("end")
  }

  predicate BlockAt(tokens: seq<Token>, p: nat, ss: seq<Stmt>)
    requires GrammarBlock(ss)
    decreases ss, 1
  {
    0 < |ss| ==> StmtAt(tokens, p, ss[0]) && BlockAt(tokens, p + Width(ss[0]), ss[1..])
  }

  /** What may follow an expression: anything but a comparison phrase. */
  predicate Follows(tokens: seq<Token>, q: nat) {
    q < |tokens| && ComparisonOf(tokens[q]).None?
  }

  /** The reserved words a statement starts with. */
  predicate Opener(t: Token) {
    t == Kw("say") || t == Kw("let") || t == Kw("if") || t == Kw("repeat") || t == Kw("while")
  }

  /** `s` is laid out from `p` on, and the token after it cannot continue
      an expression. Each part is written `P(..) == true`: Dafny then keeps
      it as one fact instead of expanding the predicate's definition, which
      keeps small the proofs that only pass a placement on. */
  predicate Placed(tokens: seq<Token>, p: nat, s: Stmt) {
    GrammarStmt(s) == true && StmtAt(tokens, p, s) == true && Follows(tokens, p + Width(s)) == true
  }

  /** The statements `ss` are laid out from `p` on and closed by `end`. */
  predicate Closed(tokens: seq<Token>, p: nat, ss: seq<Stmt>) {
    && GrammarBlock(ss) == true && BlockAt(tokens, p, ss) == true
    && p + BlockWidth(ss) < |tokens| && tokens[p + BlockWidth(ss)] == Kw("end")
  }

  /** The statements `ss` are laid out from `p` on and closed by EOF. */
  predicate Ended(tokens: seq<Token>, p: nat, ss: seq<Stmt>) {
    && GrammarBlock(ss) == true && BlockAt(tokens, p, ss) == true
    && p + BlockWidth(ss) < |tokens| && tokens[p + BlockWidth(ss)] == EofToken
  }

  /** `ts` occurs in `tokens` from position `p` on. */
  predicate At(tokens: seq<Token>, p: nat, ts: seq<Token>) {
    p + |ts| <= |tokens| && tokens[p..p + |ts|] == ts
  }
}

=== FILE: lexer.dfy ===
/** The scanner of HumanaT/src/lexer.py (copied verbatim as humanat.py:1-29):
    one ordered regular-expression alternation applied left to right, in the
    manner of `re.finditer`. Character classes are ASCII. */
module Lexer {

  datatype TokenType = String | Identifier | Number | Keyword | Eof

  datatype Token = Token(kind: TokenType, value: string)

  const EofToken: Token := Token(Eof, "")

  /** The source as written tries IDENTIFIER before KEYWORD; the corrected
      scanner swaps the two. The parser uses the same flag for its repairs. */
  datatype Revision = AsWritten | Corrected

  predicate IsDigit(c: char) {
    '0' <= c <= '9'
  }

  predicate IsWordStart(c: char) {
    'a' <= c <= 'z' || 'A' <= c <= 'Z' || c == '_'
  }

  /** `\w`, restricted to ASCII */
  predicate IsWordChar(c: char) {
    IsWordStart(c) || IsDigit(c)
  }

  /** The character classes the patterns repeat: `\d`, `\w` and `[^"]`. */
  datatype CharClass = Digits | WordChars | NonQuotes

  predicate InClass(c: char, cls: CharClass) {
    match cls
    case Digits => IsDigit(c)
    case WordChars => IsWordChar(c)
    case NonQuotes => c != '"'
  }

  /** The reserved words, in the order the KEYWORD pattern lists them. */
  const Keywords: seq<string> := ["say", "let", "be", "if", "then", "repeat", "times",
    "is greater than", "is less than", "is equal to", "while", "do", "end"]

  /** Length of the longest run of characters of class `cls` that starts at `i`. */
  function RunLength(s: string, i: nat, cls: CharClass): (n: nat)
    requires i <= |s|
    ensures i + n <= |s|
    ensures forall j :: i <= j < i + n ==> InClass(s[j], cls)
    ensures i + n == |s| || !InClass(s[i + n], cls)
    decreases |s| - i
  {
    if i == |s| || !InClass(s[i], cls) then 0 else 1 + RunLength(s, i + 1, cls)
  }

  /** `\b` at position `j`: exactly one side of `j` is a word character. */
  predicate WordBoundary(s: string, j: nat)
    requires j <= |s|
  {
    (0 < j && IsWordChar(s[j - 1])) != (j < |s| && IsWordChar(s[j]))
  }

  /** `\bw\b` matches at `i`. */
  predicate WholeWordAt(s: string, i: nat, w: string)
    requires i <= |s|
  {
    i + |w| <= |s| && WordBoundary(s, i) && s[i..i + |w|] == w && WordBoundary(s, i + |w|)
  }

  /** `s[i..i + n]` is a reserved word standing as a whole word. */
  predicate IsKeywordAt(s: string, i: nat, n: nat)
    requires i + n <= |s|
  {
    exists k :: 0 <= k < |Keywords| && |Keywords[k]| == n && WholeWordAt(s, i, Keywords[k])
  }

  /** The shape of a lexeme of kind `k` covering `s[i..i + n]`. */
  predicate WellShaped(s: string, k: TokenType, i: nat, n: nat)
    requires i + n <= |s|
  {
    0 < n &&
    match k
    case String =>
      2 <= n && s[i] == '"' && s[i + n - 1] == '"'
      && forall j :: i < j < i + n - 1 ==> s[j] != '"'
    case Number =>
      (forall j :: i <= j < i + n ==> IsDigit(s[j]))
      && (i + n == |s| || !IsDigit(s[i + n]))
    case Identifier =>
      IsWordStart(s[i])
      && (forall j :: i < j < i + n ==> IsWordChar(s[j]))
      && (i + n == |s| || !IsWordChar(s[i + n]))
    case Keyword => IsKeywordAt(s, i, n)
    case Eof => false
  }

  /** STRING, `"[^"]*"`: length of the match at `i`, 0 when there is none. */
  function StringMatch(s: string, i: nat): (n: nat)
    requires i <= |s|
    ensures i + n <= |s|
    ensures n > 0 <==> i < |s| && s[i] == '"' && exists j :: i < j < |s| && s[j] == '"'
  {
    if i < |s| && s[i] == '"' then
      var inner := RunLength(s, i + 1, NonQuotes);
      if i + 1 + inner < |s| then inner + 2 else 0
    else
      0
  }

  /** NUMBER, `\d+` */
  function NumberMatch(s: string, i: nat): (n: nat)
    requires i <= |s|
    ensures i + n <= |s|
    ensures n > 0 <==> i < |s| && IsDigit(s[i])
  {
    RunLength(s, i, Digits)
  }

  /** IDENTIFIER, `[a-zA-Z_]\w*` */
  function IdentifierMatch(s: string, i: nat): (n: nat)
    requires i <= |s|
    ensures i + n <= |s|
    ensures n > 0 <==> i < |s| && IsWordStart(s[i])
  {
    if i < |s| && IsWordStart(s[i]) then 1 + RunLength(s, i + 1, WordChars) else 0
  }

  /** Every reserved word is non-empty, and begins and ends with a letter. */
  lemma KeywordIsWord(k: nat)
    requires k < |Keywords|
    ensures 0 < |Keywords[k]| && IsWordStart(Keywords[k][0])
    ensures IsWordStart(Keywords[k][|Keywords[k]| - 1])
  {
  }

  /** The alternatives `\bw\b` of the keyword pattern, tried in order from
      the `k`-th: the index of the first that matches at `i`, or `|Keywords|`. */
  function FirstKeyword(s: string, i: nat, k: nat): (r: nat)
    requires i <= |s| && k <= |Keywords|
    ensures k <= r <= |Keywords|
    ensures r < |Keywords| ==> WholeWordAt(s, i, Keywords[r])
    ensures forall j :: k <= j < r ==> !WholeWordAt(s, i, Keywords[j])
    decreases |Keywords| - k
  {
    if k == |Keywords| then k
    else if WholeWordAt(s, i, Keywords[k]) then k
    else FirstKeyword(s, i, k + 1)
  }

  /** No reserved word begins another one. */
  lemma KeywordsPrefixFree(a: nat, b: nat)
    requires a < |Keywords| && b < |Keywords| && a != b
    ensures !(Keywords[a] <= Keywords[b])
  {
    var w, v := Keywords[a], Keywords[b];
    // every two reserved words differ in their first, second or fourth letter
    assert w[0] != v[0] || (|w| > 1 && |v| > 1 && w[1] != v[1]) || (|w| > 3 && |v| > 3 && w[3] != v[3]);
  }

  /** At most one reserved word stands at any position. */
  lemma OneKeywordAt(s: string, i: nat, a: nat, b: nat)
    requires i <= |s| && a < |Keywords| && b < |Keywords|
    requires WholeWordAt(s, i, Keywords[a]) && WholeWordAt(s, i, Keywords[b])
    ensures a == b
  {
    var w, v := Keywords[a], Keywords[b];
    if |w| <= |v| {
      assert v[..|w|] == s[i..i + |v|][..|w|] == s[i..i + |w|] == w;
      if a != b { KeywordsPrefixFree(a, b); }
    } else {
      assert w[..|v|] == s[i..i + |w|][..|v|] == s[i..i + |v|] == v;
      KeywordsPrefixFree(b, a);
    }
  }

  /** KEYWORD: the reserved-word pattern. It matches exactly the reserved
      word, if any, that stands as a whole word at `i`. */
  function KeywordMatch(s: string, i: nat): (n: nat)
    requires i <= |s|
    ensures i + n <= |s|
    ensures n > 0 ==> IsWordStart(s[i])
    ensures forall k :: 0 <= k < |Keywords| && WholeWordAt(s, i, Keywords[k]) ==> n == |Keywords[k]|
  {
    var r := FirstKeyword(s, i, 0);
    if r == |Keywords| then 0
    else
      KeywordIsWord(r);
      OneKeywordAtFirst(s, i, r);
      assert s[i] == s[i..i + |Keywords[r]|][0];
      |Keywords[r]|
  }

  /** Every reserved word standing at `i` is the `r`-th. */
  lemma OneKeywordAtFirst(s: string, i: nat, r: nat)
    requires i <= |s| && r < |Keywords| && WholeWordAt(s, i, Keywords[r])
    ensures forall k :: 0 <= k < |Keywords| && WholeWordAt(s, i, Keywords[k]) ==> k == r
  {
    forall k | 0 <= k < |Keywords| && WholeWordAt(s, i, Keywords[k])
      ensures k == r
    {
      OneKeywordAt(s, i, k, r);
    }
  }

  /** The length of the match of the pattern for `k` at `i`, 0 when there is none. */
  function Alternative(k: TokenType, s: string, i: nat): (n: nat)
    requires i <= |s|
    ensures i + n <= |s|
  {
    match k
    case String => StringMatch(s, i)
    case Number => NumberMatch(s, i)
    case Identifier => IdentifierMatch(s, i)
    case Keyword => KeywordMatch(s, i)
    case Eof => 0
  }

  datatype Match = NoMatch | Matched(kind: TokenType, len: nat)

  /** The alternation at position `i`: the first alternative that matches
      wins, with its greedy length. As written the order is STRING, NUMBER,
      IDENTIFIER, KEYWORD; corrected, KEYWORD comes before IDENTIFIER. */
  function MatchAt(rev: Revision, s: string, i: nat): (m: Match)
    requires i <= |s|
    ensures m.Matched? ==> 0 < m.len && i + m.len <= |s| && m.kind != Eof
    ensures m.Matched? ==> m.len == Alternative(m.kind, s, i)
  {
    var str := Alternative(String, s, i);
    var num := Alternative(Number, s, i);
    var id := Alternative(Identifier, s, i);
    var kw := Alternative(Keyword, s, i);
    if str > 0 then Matched(String, str)
    else if num > 0 then Matched(Number, num)
    else if rev == AsWritten then
      if id > 0 then Matched(Identifier, id)
      else if kw > 0 then Matched(Keyword, kw)
      else NoMatch
    else
      if kw > 0 then Matched(Keyword, kw)
      else if id > 0 then Matched(Identifier, id)
      else NoMatch
  }

  /** The alternation's outcome at every position of `s`. */
  function MatchTable(rev: Revision, s: string): (t: seq<Match>)
    ensures |t| == |s| && ValidTable(t)
  {
    seq(|s|, k requires 0 <= k < |s| => MatchAt(rev, s, k))
  }

  /** Every match in `t` is a non-empty token that ends inside the text. */
  predicate ValidTable(t: seq<Match>) {
    forall k :: 0 <= k < |t| && t[k].Matched? ==>
      0 < t[k].len && k + t[k].len <= |t| && t[k].kind != Eof
  }

  /** A match found by the scanner: its kind and the half-open span `[start, end)`. */
  datatype Lexeme = Lexeme(kind: TokenType, start: nat, end: nat)

  /** The lexemes lie inside `[i, n)` and none is empty. */
  predicate Within(n: nat, i: nat, ls: seq<Lexeme>) {
    forall j :: 0 <= j < |ls| ==> i <= ls[j].start < ls[j].end <= n
  }

  /** Each lexeme ends no later than any later lexeme starts. */
  predicate Ordered(ls: seq<Lexeme>) {
    forall a, b :: 0 <= a < b < |ls| ==> ls[a].end <= ls[b].start
  }

  /** Each lexeme is the match the table records at its start. */
  predicate FromTable(t: seq<Match>, ls: seq<Lexeme>)
    requires Within(|t|, 0, ls)
  {
    forall j :: 0 <= j < |ls| ==> t[ls[j].start] == Matched(ls[j].kind, ls[j].end - ls[j].start)
  }

  /** `re.finditer` from position `i`, given the alternation's outcome `t` at
      every position: take the match at `i` and continue after it, or skip
      one character when nothing matches there. */
  function FindIter(t: seq<Match>, i: nat): (ls: seq<Lexeme>)
    requires ValidTable(t) && i <= |t|
    ensures Within(|t|, i, ls)
    decreases |t| - i
  {
    if i == |t| then []
    else if t[i].NoMatch? then FindIter(t, i + 1)
    else [Lexeme(t[i].kind, i, i + t[i].len)] + FindIter(t, i + t[i].len)
  }

  /** `re.finditer` reports its matches left to right, without overlap. */
  lemma {:induction false} FindIterOrdered(t: seq<Match>, i: nat)
    requires ValidTable(t) && i <= |t|
    ensures Ordered(FindIter(t, i))
    decreases |t| - i
  {
    if i < |t| {
      if t[i].NoMatch? {
        FindIterOrdered(t, i + 1);
      } else {
        var rest := FindIter(t, i + t[i].len);
        var ls := [Lexeme(t[i].kind, i, i + t[i].len)] + rest;
        FindIterOrdered(t, i + t[i].len);
        forall a, b | 0 <= a < b < |ls|
          ensures ls[a].end <= ls[b].start
        {
          assert ls[b] == rest[b - 1];
          if a > 0 {
            assert ls[a] == rest[a - 1];
          }
        }
      }
    }
  }

  /** Each match `re.finditer` reports is the alternation's match at its start. */
  lemma {:induction false} FindIterFromTable(t: seq<Match>, i: nat)
    requires ValidTable(t) && i <= |t|
    ensures FromTable(t, FindIter(t, i))
    decreases |t| - i
  {
    if i < |t| {
      if t[i].NoMatch? {
        FindIterFromTable(t, i + 1);
      } else {
        var rest := FindIter(t, i + t[i].len);
        var ls := [Lexeme(t[i].kind, i, i + t[i].len)] + rest;
        FindIterFromTable(t, i + t[i].len);
        forall j | 1 <= j < |ls|
          ensures t[ls[j].start] == Matched(ls[j].kind, ls[j].end - ls[j].start)
        {
          assert ls[j] == rest[j - 1];
        }
      }
    }
  }

  /** The lexemes the scanner finds in `s`. */
  function Scan(rev: Revision, s: string): (ls: seq<Lexeme>)
    ensures Within(|s|, 0, ls)
  {
    FindIter(MatchTable(rev, s), 0)
  }
  /** The token of a lexeme: its kind and the text it covers. */
  function TokenOf(s: string, l: Lexeme): Token
    requires l.start <= l.end <= |s|
  {
    Token(l.kind, s[l.start..l.end])
  }

  /** `tokenize(code)`: every match in order, then the EOF token. */
  function Tokenize(rev: Revision, code: string): (tokens: seq<Token>)
    ensures 0 < |tokens| && tokens[|tokens| - 1] == EofToken
    ensures forall j :: 0 <= j < |tokens| - 1 ==> tokens[j].kind != Eof && tokens[j].value != ""
  {
    var ls := Scan(rev, code);
    FindIterFromTable(MatchTable(rev, code), 0);
    seq(|ls|, j requires 0 <= j < |ls| => TokenOf(code, ls[j])) + [EofToken]
  }
}

=== FILE: lexer_facts.dfy ===
/** Properties of the scanner of HumanaT/src/lexer.py. The `== true`
    equations are explained at `Layout.Placed`. */
module LexerFacts {
  import opened Lexer

  /** Position `k` lies inside none of the lexemes `ls`. */
  predicate Uncovered(ls: seq<Lexeme>, k: nat) {
    forall j :: 0 <= j < |ls| ==> !(ls[j].start <= k < ls[j].end)
  }

  /** Every position from `i` that the lexemes leave uncovered matches nothing. */
  predicate GapsUnmatched(t: seq<Match>, i: nat, ls: seq<Lexeme>) {
    forall k :: i <= k < |t| && Uncovered(ls, k) ==> t[k] == NoMatch
  }

  /** A declarative reading of `re.finditer` from position `i` over the
      match table `t`: the lexemes lie in order inside `[i, |t|)`, each is
      the match recorded at its start, and every position they leave
      uncovered is one where nothing matches. */
  predicate IsTokenization(t: seq<Match>, i: nat, ls: seq<Lexeme>) {
    Within(|t|, i, ls) && Ordered(ls) && FromTable(t, ls) && GapsUnmatched(t, i, ls)
  }

  /** Every position the scanner passes over without a token is a position
      where no alternative matches. */
  lemma {:induction false} ScanSkipsOnlyUnmatched(t: seq<Match>, i: nat, k: nat)
    requires ValidTable(t) && i <= k < |t|
    requires Uncovered(FindIter(t, i), k)
    ensures t[k] == NoMatch
    decreases |t| - i
  {
    if t[i].NoMatch? {
      if k > i {
        assert FindIter(t, i) == FindIter(t, i + 1);
        ScanSkipsOnlyUnmatched(t, i + 1, k);
      }
    } else {
      var ls := FindIter(t, i);
      var rest := FindIter(t, i + t[i].len);
      assert ls == [Lexeme(t[i].kind, i, i + t[i].len)] + rest;
      assert ls[0] == Lexeme(t[i].kind, i, i + t[i].len);
      assert Uncovered(rest, k) by {
        forall j | 0 <= j < |rest|
          ensures !(rest[j].start <= k < rest[j].end)
        {
          assert rest[j] == ls[j + 1];
        }
      }
      ScanSkipsOnlyUnmatched(t, i + t[i].len, k);
    }
  }

  /** A tokenization whose first position matches nothing is a tokenization
      from the next position. */
  lemma TokenizationAfterSkip(t: seq<Match>, i: nat, ls: seq<Lexeme>)
    requires i < |t| && t[i] == NoMatch
    requires IsTokenization(t, i, ls)
    ensures IsTokenization(t, i + 1, ls)
  {
    forall j | 0 <= j < |ls|
      ensures ls[j].start != i
    {
      if j > 0 {
        assert ls[0].end <= ls[j].start;
      }
    }
  }

  /** A tokenization whose first position holds a match begins with that
      match. */
  lemma TokenizationStartsWithMatch(t: seq<Match>, i: nat, ls: seq<Lexeme>)
    requires i < |t| && t[i].Matched?
    requires IsTokenization(t, i, ls) == true
    ensures 0 < |ls| && ls[0] == Lexeme(t[i].kind, i, i + t[i].len)
  {
    assert !Uncovered(ls, i);
  }

  /** What follows the first lexeme of a tokenization is a tokenization
      from that lexeme's end. */
  lemma TokenizationRest(t: seq<Match>, i: nat, ls: seq<Lexeme>)
    requires 0 < |ls| && ls[0].start == i
    requires IsTokenization(t, i, ls) == true
    ensures ls[0].end <= |t| && IsTokenization(t, ls[0].end, ls[1..]) == true
  {
    RestWithin(t, ls);
    RestOrdered(ls);
    RestFromTable(t, ls);
    RestGapsUnmatched(t, i, ls);
  }

  lemma RestWithin(t: seq<Match>, ls: seq<Lexeme>)
    requires 0 < |ls| && Within(|t|, 0, ls) && Ordered(ls)
    ensures Within(|t|, ls[0].end, ls[1..])
  {
    var rest := ls[1..];
    forall j | 0 <= j < |rest|
      ensures ls[0].end <= rest[j].start < rest[j].end <= |t|
    {
      assert rest[j] == ls[j + 1];
      assert ls[0].end <= ls[j + 1].start;
    }
  }

  lemma RestOrdered(ls: seq<Lexeme>)
    requires 0 < |ls| && Ordered(ls)
    ensures Ordered(ls[1..])
  {
    var rest := ls[1..];
    forall a, b | 0 <= a < b < |rest|
      ensures rest[a].end <= rest[b].start
    {
      assert rest[a] == ls[a + 1] && rest[b] == ls[b + 1];
    }
  }

  lemma RestFromTable(t: seq<Match>, ls: seq<Lexeme>)
    requires 0 < |ls| && Within(|t|, 0, ls) && FromTable(t, ls)
    ensures Within(|t|, 0, ls[1..]) && FromTable(t, ls[1..])
  {
    var rest := ls[1..];
    forall j | 0 <= j < |rest|
      ensures rest[j].start < rest[j].end <= |t|
      ensures t[rest[j].start] == Matched(rest[j].kind, rest[j].end - rest[j].start)
    {
      assert rest[j] == ls[j + 1];
    }
  }

  lemma RestGapsUnmatched(t: seq<Match>, i: nat, ls: seq<Lexeme>)
    requires 0 < |ls| && ls[0].start == i && Within(|t|, i, ls) && GapsUnmatched(t, i, ls)
    ensures GapsUnmatched(t, ls[0].end, ls[1..])
  {
    var rest := ls[1..];
    forall k | ls[0].end <= k < |t| && Uncovered(rest, k)
      ensures t[k] == NoMatch
    {
      forall j | 0 <= j < |ls|
        ensures !(ls[j].start <= k < ls[j].end)
      {
        if j > 0 {
          assert ls[j] == rest[j - 1];
        }
      }
      assert Uncovered(ls, k);
    }
  }

  /** There is only one tokenization from `i`, and the scanner finds it. */
  lemma {:induction false} TokenizationIsUnique(t: seq<Match>, i: nat, ls: seq<Lexeme>)
    requires ValidTable(t) && i <= |t|
    requires IsTokenization(t, i, ls)
    ensures ls == FindIter(t, i)
    decreases |t| - i, 1
  {
    if i == |t| {
      NothingFromEnd(|t|, ls);
    } else if t[i].NoMatch? {
      TokenizationAfterSkip(t, i, ls);
      TokenizationIsUnique(t, i + 1, ls);
    } else {
      TokenizationStartsWithMatch(t, i, ls);
      TokenizationRest(t, i, ls);
      UniqueFromMatch(t, i, ls);
    }
  }

  /** The case of `TokenizationIsUnique` where a match starts at `i`: the
      first lexeme is that match and the rest is a tokenization after it. */
  lemma {:induction false} UniqueFromMatch(t: seq<Match>, i: nat, ls: seq<Lexeme>)
    requires ValidTable(t) && i < |t| && t[i].Matched?
    requires 0 < |ls| && ls[0] == Lexeme(t[i].kind, i, i + t[i].len)
    requires ls[0].end <= |t| && IsTokenization(t, ls[0].end, ls[1..]) == true
    ensures ls == FindIter(t, i)
    decreases |t| - i, 0
  {
    UniqueTail(t, ls[0].end, ls[1..]);
    FindIterCons(t, i, ls);
  }

  /** `TokenizationIsUnique` for the rest of a tokenization. */
  lemma {:induction false} UniqueTail(t: seq<Match>, i: nat, ls: seq<Lexeme>)
    requires ValidTable(t) && i <= |t| && IsTokenization(t, i, ls) == true
    ensures ls == FindIter(t, i)
    decreases |t| - i, 2
  {
    TokenizationIsUnique(t, i, ls);
  }

  /** The scanner's output from a match is that match followed by its
      output from the end of the match. */
  lemma FindIterCons(t: seq<Match>, i: nat, ls: seq<Lexeme>)
    requires ValidTable(t) && i < |t| && t[i].Matched? && 0 < |ls|
    requires ls[0] == Lexeme(t[i].kind, i, i + t[i].len) && ls[1..] == FindIter(t, i + t[i].len)
    ensures ls == FindIter(t, i)
  {
    assert ls == [ls[0]] + ls[1..];
  }

  /** No non-empty lexeme fits in `[n, n)`. */
  lemma NothingFromEnd(n: nat, ls: seq<Lexeme>)
    requires Within(n, n, ls)
    ensures ls == []
  {
    if ls != [] {
      FirstWithin(n, n, ls);
    }
  }

  /** A lexeme that lies inside `[i, n)` needs `i < n`. */
  lemma FirstWithin(n: nat, i: nat, ls: seq<Lexeme>)
    requires Within(n, i, ls) && ls != []
    ensures i < n
  {
    assert i <= ls[0].start < ls[0].end <= n;
  }

  /** The scanner's output is the one declarative tokenization of the text. */
  lemma ScanCharacterization(rev: Revision, s: string, ls: seq<Lexeme>)
    ensures ls == Scan(rev, s) <==> IsTokenization(MatchTable(rev, s), 0, ls)
  {
    var t := MatchTable(rev, s);
    if ls == Scan(rev, s) {
      FindIterOrdered(t, 0);
      FindIterFromTable(t, 0);
      forall k | 0 <= k < |t| && Uncovered(ls, k)
        ensures t[k] == NoMatch
      {
        ScanSkipsOnlyUnmatched(t, 0, k);
      }
    }
    if IsTokenization(t, 0, ls) {
      TokenizationIsUnique(t, 0, ls);
    }
  }

  /** STRING matches are a quoted run without inner quotes, quotes kept. */
  lemma StringMatchShape(s: string, i: nat)
    requires i <= |s| && StringMatch(s, i) > 0
    ensures WellShaped(s, String, i, StringMatch(s, i))
  {
    var inner := RunLength(s, i + 1, NonQuotes);
    assert s[i + 1 + inner] == '"';
  }

  /** A KEYWORD match is one of the reserved words standing as a whole word. */
  lemma KeywordMatchShape(s: string, i: nat)
    requires i <= |s| && KeywordMatch(s, i) > 0
    ensures WellShaped(s, Keyword, i, KeywordMatch(s, i))
  {
    var r := FirstKeyword(s, i, 0);
    assert WholeWordAt(s, i, Keywords[r]);
  }

  /** Whatever the alternation matches has the shape of its kind. */
  lemma MatchAtShape(rev: Revision, s: string, i: nat)
    requires i <= |s| && MatchAt(rev, s, i).Matched?
    ensures WellShaped(s, MatchAt(rev, s, i).kind, i, MatchAt(rev, s, i).len)
  {
    AlternativeShape(MatchAt(rev, s, i).kind, s, i);
  }

  /** Whatever an alternative matches has the shape of its kind. */
  lemma AlternativeShape(k: TokenType, s: string, i: nat)
    requires i <= |s| && Alternative(k, s, i) > 0
    ensures WellShaped(s, k, i, Alternative(k, s, i))
  {
    if k == String {
      StringMatchShape(s, i);
    } else if k == Keyword {
      KeywordMatchShape(s, i);
    }
  }

  /** Every reserved word also matches the IDENTIFIER pattern at the same place. */
  lemma KeywordIsAlsoIdentifier(s: string, i: nat)
    requires i <= |s| && Alternative(Keyword, s, i) > 0
    ensures Alternative(Identifier, s, i) > 0
  {
  }

  /** Where a reserved word stands, the scanner as written reports an
      IDENTIFIER and the corrected one a KEYWORD; everywhere else the two
      agree. */
  lemma ReservedWordLexing(s: string, i: nat)
    requires i <= |s|
    ensures Alternative(String, s, i) == 0 && Alternative(Number, s, i) == 0
              && Alternative(Keyword, s, i) > 0 ==>
            && MatchAt(AsWritten, s, i) == Matched(Identifier, Alternative(Identifier, s, i))
            && MatchAt(Corrected, s, i) == Matched(Keyword, Alternative(Keyword, s, i))
    ensures Alternative(Keyword, s, i) == 0 ==> MatchAt(AsWritten, s, i) == MatchAt(Corrected, s, i)
  {
    if Alternative(Keyword, s, i) > 0 {
      KeywordIsAlsoIdentifier(s, i);
    }
  }

  /** Wherever the `k`-th reserved word stands as a whole word, the corrected
      scanner reports it as a KEYWORD of its own length, and the scanner as
      written reports an IDENTIFIER instead. */
  lemma ReservedWordAt(s: string, i: nat, k: nat)
    requires i <= |s| && k < |Keywords| && WholeWordAt(s, i, Keywords[k])
    ensures MatchAt(Corrected, s, i) == Matched(Keyword, |Keywords[k]|)
    ensures MatchAt(AsWritten, s, i).Matched? && MatchAt(AsWritten, s, i).kind == Identifier
  {
    KeywordIsWord(k);
    assert s[i] == s[i..i + |Keywords[k]|][0] == Keywords[k][0];
    ReservedWordLexing(s, i);
  }

  /** The scanner as written never reports a KEYWORD at any position. */
  lemma AsWrittenMatchNeverKeyword(s: string, i: nat)
    requires i <= |s|
    ensures MatchAt(AsWritten, s, i).Matched? ==> MatchAt(AsWritten, s, i).kind != Keyword
  {
    ReservedWordLexing(s, i);
  }

  /** When nothing matches at `i`, no alternative matches there. */
  lemma NoMatchMeansNoAlternative(rev: Revision, s: string, i: nat, k: TokenType)
    requires i <= |s| && MatchAt(rev, s, i) == NoMatch
    ensures Alternative(k, s, i) == 0
  {
  }

  /** `tokenize` lists the scanner's lexemes, in order, as tokens carrying
      the text they cover, and then EOF. */
  lemma TokenizeIsScan(rev: Revision, code: string)
    ensures |Tokenize(rev, code)| == |Scan(rev, code)| + 1
    ensures Ordered(Scan(rev, code))
    ensures forall j :: 0 <= j < |Scan(rev, code)| ==>
      Tokenize(rev, code)[j] == TokenOf(code, Scan(rev, code)[j])
  {
    FindIterOrdered(MatchTable(rev, code), 0);
  }

  /** Each of the lexemes `ls` of `code` has the shape of its kind. */
  predicate AllWellShaped(code: string, ls: seq<Lexeme>)
    requires Within(|code|, 0, ls)
  {
    forall j :: 0 <= j < |ls| ==> WellShaped(code, ls[j].kind, ls[j].start, ls[j].end - ls[j].start)
  }

  /** Every lexeme has the shape of its kind: quoted strings, maximal digit
      runs, identifiers running to the end of the word, whole reserved words. */
  lemma ScanShape(rev: Revision, code: string)
    ensures AllWellShaped(code, Scan(rev, code))
  {
    var t := MatchTable(rev, code);
    var ls := Scan(rev, code);
    FindIterFromTable(t, 0);
    forall j | 0 <= j < |ls|
      ensures WellShaped(code, ls[j].kind, ls[j].start, ls[j].end - ls[j].start)
    {
      LexemeShape(rev, code, ls[j]);
    }
  }

  /** A lexeme that is the alternation's match at its start has the shape of its kind. */
  lemma LexemeShape(rev: Revision, code: string, l: Lexeme)
    requires l.start < l.end <= |code|
    requires MatchAt(rev, code, l.start) == Matched(l.kind, l.end - l.start)
    ensures WellShaped(code, l.kind, l.start, l.end - l.start)
  {
    MatchAtShape(rev, code, l.start);
  }

  /** No token that `tokenize` returns, as written, is a KEYWORD. */
  lemma AsWrittenTokenizeNeverKeyword(code: string)
    ensures forall j :: 0 <= j < |Tokenize(AsWritten, code)| ==>
      Tokenize(AsWritten, code)[j].kind != Keyword
  {
    var t := MatchTable(AsWritten, code);
    var ls := Scan(AsWritten, code);
    var tokens := Tokenize(AsWritten, code);
    TokenizeIsScan(AsWritten, code);
    FindIterFromTable(t, 0);
    forall j | 0 <= j < |tokens|
      ensures tokens[j].kind != Keyword
    {
      if j < |ls| {
        assert t[ls[j].start] == MatchAt(AsWritten, code, ls[j].start);
        AsWrittenMatchNeverKeyword(code, ls[j].start);
      }
    }
  }

  /** A NUMBER lexeme never follows a digit: number tokens are maximal runs
      of digits on both sides. */
  lemma NumberPreceded(rev: Revision, code: string, j: nat)
    requires j < |Scan(rev, code)| && Scan(rev, code)[j].kind == Number
    requires 0 < Scan(rev, code)[j].start
    ensures !IsDigit(code[Scan(rev, code)[j].start - 1])
  {
    var ls := Scan(rev, code);
    var p := ls[j].start - 1;
    if IsDigit(code[p]) {
      DigitsAreCovered(rev, code, p);
      var a :| 0 <= a < |ls| && ls[a].start <= p < ls[a].end;
      FindIterOrdered(MatchTable(rev, code), 0);
      ScanShape(rev, code);
      LexemeBeforeNumber(code, ls, a, j);
    }
  }

  /** The scanner leaves no digit uncovered: a digit always starts a match. */
  lemma DigitsAreCovered(rev: Revision, code: string, p: nat)
    requires p < |code| && IsDigit(code[p])
    ensures !Uncovered(Scan(rev, code), p)
  {
    var t := MatchTable(rev, code);
    if Uncovered(Scan(rev, code), p) {
      ScanSkipsOnlyUnmatched(t, 0, p);
      assert t[p] == MatchAt(rev, code, p);
      NoMatchMeansNoAlternative(rev, code, p, Number);
    }
  }

  /** The lexeme covering the character just before a NUMBER lexeme does
      not end in a digit. */
  lemma LexemeBeforeNumber(code: string, ls: seq<Lexeme>, a: nat, j: nat)
    requires Within(|code|, 0, ls) && Ordered(ls) && AllWellShaped(code, ls)
    requires a < |ls| && j < |ls| && ls[j].kind == Number && 0 < ls[j].start
    requires ls[a].start <= ls[j].start - 1 < ls[a].end
    ensures !IsDigit(code[ls[j].start - 1])
  {
    var p := ls[j].start - 1;
    assert ls[a].end == ls[j].start;
    assert WellShaped(code, ls[a].kind, ls[a].start, ls[a].end - ls[a].start);
    assert WellShaped(code, Number, ls[j].start, ls[j].end - ls[j].start);
  }

  /** A `"` with no closing quote after it matches no alternative. */
  lemma UnclosedQuoteMatchesNothing(rev: Revision, s: string, i: nat)
    requires i < |s| && s[i] == '"'
    requires forall j :: i < j < |s| ==> s[j] != '"'
    ensures MatchAt(rev, s, i) == NoMatch
  {
  }

  /** ... so no token starts at an unclosed quote: the scanner skips it. */
  lemma UnclosedQuoteSkipped(rev: Revision, s: string, i: nat)
    requires i < |s| && s[i] == '"'
    requires forall j :: i < j < |s| ==> s[j] != '"'
    ensures forall j :: 0 <= j < |Scan(rev, s)| ==> Scan(rev, s)[j].start != i
  {
    var t := MatchTable(rev, s);
    FindIterFromTable(t, 0);
    assert t[i] == MatchAt(rev, s, i);
    UnclosedQuoteMatchesNothing(rev, s, i);
  }

  /** `tokenize("say")` as written: the reserved word comes out as an IDENTIFIER. */
  lemma SayAsWritten()
    ensures Tokenize(AsWritten, "say") == [Token(Identifier, "say"), EofToken]
  {
    var t := MatchTable(AsWritten, "say");
    assert t[0] == MatchAt(AsWritten, "say", 0);
    assert IdentifierMatch("say", 0) == 3;
    assert t[0] == Matched(Identifier, 3);
    assert FindIter(t, 3) == [];
    assert Scan(AsWritten, "say") == [Lexeme(Identifier, 0, 3)];
    assert TokenOf("say", Lexeme(Identifier, 0, 3)) == Token(Identifier, "say");
  }

  /** `tokenize("say")` with KEYWORD tried first: a KEYWORD token. */
  lemma SayCorrected()
    ensures Tokenize(Corrected, "say") == [Token(Keyword, "say"), EofToken]
  {
    var t := MatchTable(Corrected, "say");
    assert WholeWordAt("say", 0, Keywords[0]);
    assert t[0] == MatchAt(Corrected, "say", 0);
    assert t[0] == Matched(Keyword, 3);
    assert FindIter(t, 3) == [];
    assert Scan(Corrected, "say") == [Lexeme(Keyword, 0, 3)];
    assert TokenOf("say", Lexeme(Keyword, 0, 3)) == Token(Keyword, "say");
  }

  /** Text in which no token can start: no letter, digit or `_`, and no two quotes. */
  predicate NoTokenText(code: string) {
    && (forall k :: 0 <= k < |code| ==> !IsWordChar(code[k]))
    && (forall a, b :: 0 <= a < b < |code| ==> code[a] != '"' || code[b] != '"')
  }

  /** Nothing matches at `k` exactly when `k` holds no word character and
      no quote that a later quote closes. */
  lemma NoMatchAt(rev: Revision, s: string, k: nat)
    requires k < |s|
    ensures MatchAt(rev, s, k) == NoMatch <==>
      !IsWordChar(s[k]) && !(s[k] == '"' && exists j :: k < j < |s| && s[j] == '"')
  {
    if Alternative(Keyword, s, k) > 0 {
      KeywordIsAlsoIdentifier(s, k);
    }
  }

  /** `tokenize` returns just EOF exactly on text in which no token can start. */
  lemma OnlyEof(rev: Revision, code: string)
    ensures Tokenize(rev, code) == [EofToken] <==> NoTokenText(code)
  {
    var t := MatchTable(rev, code);
    TokenizeIsScan(rev, code);
    ScanCharacterization(rev, code, []);
    assert Scan(rev, code) == [] <==> forall k :: 0 <= k < |t| ==> t[k] == NoMatch;
    if NoTokenText(code) {
      forall k | 0 <= k < |t|
        ensures t[k] == NoMatch
      {
        assert t[k] == MatchAt(rev, code, k);
        NoMatchAt(rev, code, k);
      }
    }
    if Tokenize(rev, code) == [EofToken] {
      forall k | 0 <= k < |code|
        ensures !IsWordChar(code[k])
        ensures code[k] == '"' ==> forall b :: k < b < |code| ==> code[b] != '"'
      {
        assert t[k] == MatchAt(rev, code, k);
        NoMatchAt(rev, code, k);
      }
    }
  }
}

=== FILE: parser.dfy ===
/** The recursive-descent parser of HumanaT/src/parser.py (copied in
    humanat.py:31-124), as functions over a token list and a cursor. Each
    production returns the node it built and the cursor after it, or the
    exception it raised. */
module Parser {
  import opened Base
  import opened Lexer
  import opened Ast
  import opened Decimal

  /** A node and the cursor just after it. */
  datatype Parsed<+T> = Parsed(node: T, next: nat)

  /** Python's default limit on the depth of nested calls. */
  const RecursionLimit: nat := 1000

  /** The list ends with an EOF token, as `tokenize` guarantees. */
  predicate EofTerminated(tokens: seq<Token>) {
    0 < |tokens| && tokens[|tokens| - 1].kind == Eof
  }

  /** A parse that stays inside the list: on success the cursor has not
      passed the EOF token, and no `peek` ran off the end. */
  predicate InBounds<T>(tokens: seq<Token>, r: Result<Parsed<T>>) {
    (r.Success? ==> r.value.next < |tokens|) && (r.Failure? ==> r.error != IndexError)
  }

  /** `peek()`: the token under the cursor. */
  function Peek(tokens: seq<Token>, p: nat): (r: Result<Token>)
    ensures r.Success? <==> p < |tokens|
    ensures r.Success? ==> r.value == tokens[p]
    ensures r.Failure? ==> r.error == IndexError
  {
    if p < |tokens| then Success(tokens[p]) else Failure(IndexError)
  }

  /** The test of `match(type, value)` on one token. */
  predicate Matches(t: Token, kind: TokenType, value: Option<string>) {
    t.kind == kind && (value.None? || t.value == value.value)
  }

  /** `match(type, value)`: whether the token under the cursor has kind
      `kind` and, when a value is given, that value. The cursor stays. */
  function Match(tokens: seq<Token>, p: nat, kind: TokenType, value: Option<string>): (r: Result<bool>)
    ensures r.Success? <==> p < |tokens|
    ensures r.Success? ==>
      (r.value <==> tokens[p].kind == kind && (value.None? || tokens[p].value == value.value))
    ensures r.Failure? ==> r.error == IndexError
  {
    var t :- Peek(tokens, p);
    Success(Matches(t, kind, value))
  }

  /** `consume(type, value)`: the token under the cursor, and the cursor one
      further on, when the token has kind `kind` and, if a non-empty value
      is given, that value; a `SyntaxError` naming the token otherwise. */
  function Consume(tokens: seq<Token>, p: nat, kind: TokenType, value: Option<string>)
    : (r: Result<Parsed<Token>>)
    ensures r.Success? ==> p < |tokens| && r.value == Parsed(tokens[p], p + 1)
    ensures r.Failure? <==>
      p >= |tokens| || tokens[p].kind != kind
      || (value.Some? && value.value != "" && tokens[p].value != value.value)
    ensures r.Failure? ==> r.error == if p < |tokens| then SyntaxError(tokens[p]) else IndexError
  {
    var t :- Peek(tokens, p);
    if t.kind != kind || (value.Some? && value.value != "" && t.value != value.value) then
      Failure(SyntaxError(t))
    else
      Success(Parsed(t, p + 1))
  }

  /** The kinds of token that stand alone as an expression. */
  predicate IsPrimary(t: Token) {
    t.kind == Number || t.kind == String || t.kind == Identifier
  }

  /** The node for a primary token: its value is kept verbatim. */
  function PrimaryNode(t: Token): Expr
    requires IsPrimary(t)
  {
    match t.kind
    case Number => NumberLit(t.value)
    case String => StringLit(t.value)
    case Identifier => Ident(t.value)
  }

  /** The comparison phrase a token stands for, if it is one: the tests of
      the comparison branches of `expression()`, in their order. */
  function ComparisonOf(t: Token): (r: Option<CompareOp>)
    ensures r.Some? ==> t == Token(Keyword, OpWord(r.value))
    ensures r.None? ==> forall op :: t != Token(Keyword, OpWord(op))
  {
    if Matches(t, Keyword, Some(OpWord(Greater))) then Some(Greater)
    else if Matches(t, Keyword, Some(OpWord(Less))) then Some(Less)
    else if Matches(t, Keyword, Some(OpWord(Equal))) then Some(Equal)
    else None
  }

  /** `expression()` as written. `depth` is the number of nested calls
      Python still allows; running out raises `RecursionError`. */
  function Expression(tokens: seq<Token>, p: nat, depth: nat): (r: Result<Parsed<Expr>>)
    ensures r.Success? ==>
      p < |tokens| && IsPrimary(tokens[p]) && r.value == Parsed(PrimaryNode(tokens[p]), p + 1)
    ensures EofTerminated(tokens) && p < |tokens| ==> InBounds(tokens, r)
    decreases depth, 0
  {
    if depth == 0 then Failure(RecursionError)
    else
      // every `match` peeks at the same token, so only the first can raise;
      // a `consume` right after a successful `match` returns that token
      var t :- Peek(tokens, p);
      if IsPrimary(t) then Success(Parsed(PrimaryNode(t), p + 1))
      else if ComparisonOf(t).Some? then Comparison(tokens, p, depth - 1, ComparisonOf(t).value)
      else Failure(SyntaxError(t))
  }

  /** A comparison branch of `expression()` as written: the left operand is
      parsed from the comparison keyword itself, then the keyword is
      consumed and the right operand parsed. */
  function Comparison(tokens: seq<Token>, p: nat, depth: nat, op: CompareOp): (r: Result<Parsed<Expr>>)
    ensures p < |tokens| && !IsPrimary(tokens[p]) ==> r.Failure?
    ensures EofTerminated(tokens) && p < |tokens| ==> InBounds(tokens, r)
    decreases depth, 1
  {
    var left :- Expression(tokens, p, depth);
    var keyword :- Consume(tokens, left.next, Keyword, Some(OpWord(op)));
    var right :- Expression(tokens, keyword.next, depth);
    Success(Parsed(Compare(op, left.node, right.node), right.next))
  }

  /** The corrected expression grammar: a primary, optionally followed by a
      comparison phrase and a second primary. */
  function InfixExpression(tokens: seq<Token>, p: nat): (r: Result<Parsed<Expr>>)
    ensures r.Success? ==> p < r.value.next <= |tokens|
    ensures EofTerminated(tokens) && p < |tokens| ==> InBounds(tokens, r)
  {
    var left :- Primary(tokens, p);
    var t :- Peek(tokens, left.next);
    var op := ComparisonOf(t);
    if op.None? then Success(left)
    else
      // the comparison phrase just recognised is consumed
      var right :- Primary(tokens, left.next + 1);
      Success(Parsed(Compare(op.value, left.node, right.node), right.next))
  }

  /** A primary, or a `SyntaxError` naming the token under the cursor. */
  function Primary(tokens: seq<Token>, p: nat): (r: Result<Parsed<Expr>>)
    ensures r.Success? ==>
      p < |tokens| && IsPrimary(tokens[p]) && r.value == Parsed(PrimaryNode(tokens[p]), p + 1)
    ensures r.Failure? ==> r.error == if p < |tokens| then SyntaxError(tokens[p]) else IndexError
  {
    var t :- Peek(tokens, p);
    if IsPrimary(t) then Success(Parsed(PrimaryNode(t), p + 1)) else Failure(SyntaxError(t))
  }

  /** The expression parser each revision uses. */
  function ExprFor(rev: Revision, tokens: seq<Token>, p: nat): (r: Result<Parsed<Expr>>)
    ensures r.Success? ==> p < r.value.next <= |tokens|
    ensures EofTerminated(tokens) && p < |tokens| ==> InBounds(tokens, r)
  {
    if rev == AsWritten then Expression(tokens, p, RecursionLimit) else InfixExpression(tokens, p)
  }

  /** Where a production starts after `statement()` has recognised its
      keyword at `p`: on the keyword itself as written, just after it
      corrected. */
  function Start(rev: Revision, p: nat): nat {
    if rev == AsWritten then p else p + 1
  }

  /** `statement()`: dispatch on the reserved word under the cursor. */
  function Statement(rev: Revision, tokens: seq<Token>, p: nat): (r: Result<Parsed<Stmt>>)
    ensures r.Success? ==> p < r.value.next <= |tokens|
    ensures EofTerminated(tokens) && p < |tokens| ==> InBounds(tokens, r)
    decreases |tokens| - p, 1
  {
    // every `match` peeks at the same token, so only the first can raise
    var t :- Peek(tokens, p);
    if Matches(t, Keyword, Some("say")) then PrintStmt(tokens, Start(rev, p))
    else if Matches(t, Keyword, Some("let")) then AssignStmt(rev, tokens, Start(rev, p))
    else if Matches(t, Keyword, Some("if")) then IfStmt(rev, tokens, Start(rev, p))
    else if Matches(t, Keyword, Some("repeat")) then LoopStmt(rev, tokens, Start(rev, p))
    else if Matches(t, Keyword, Some("while")) then WhileStmt(rev, tokens, Start(rev, p))
    else Failure(SyntaxError(t))
  }

  /** `printStmt()`: a STRING token, quotes kept. */
  function PrintStmt(tokens: seq<Token>, p: nat): (r: Result<Parsed<Stmt>>)
    ensures r.Success? ==>
      p < |tokens| && tokens[p].kind == String && r.value == Parsed(Print(tokens[p].value), p + 1)
    ensures r.Failure? ==> r.error == if p < |tokens| then SyntaxError(tokens[p]) else IndexError
  {
    var s :- Consume(tokens, p, String, None);
    Success(Parsed(Print(s.node.value), s.next))
  }

  /** `assignStmt()`: IDENTIFIER `be` expression. */
  function AssignStmt(rev: Revision, tokens: seq<Token>, p: nat): (r: Result<Parsed<Stmt>>)
    ensures r.Success? ==> p < r.value.next <= |tokens| && p < |tokens| && tokens[p].kind == Identifier
    ensures EofTerminated(tokens) && p < |tokens| ==> InBounds(tokens, r)
  {
    var name :- Consume(tokens, p, Identifier, None);
    var be :- Consume(tokens, name.next, Keyword, Some("be"));
    var value :- ExprFor(rev, tokens, be.next);
    Success(Parsed(Assign(name.node.value, value.node), value.next))
  }

  /** `ifStmt()`: expression `then` statement. */
  function IfStmt(rev: Revision, tokens: seq<Token>, p: nat): (r: Result<Parsed<Stmt>>)
    ensures r.Success? ==> p < r.value.next <= |tokens|
    ensures EofTerminated(tokens) && p < |tokens| ==> InBounds(tokens, r)
    decreases |tokens| - p, 0
  {
    var cond :- ExprFor(rev, tokens, p);
    var then_ :- Consume(tokens, cond.next, Keyword, Some("then"));
    var body :- Statement(rev, tokens, then_.next);
    Success(Parsed(If(cond.node, body.node), body.next))
  }

  /** `loopStmt()`: NUMBER `times` statement; the count is converted by
      `int()` once the body has been parsed. */
  function LoopStmt(rev: Revision, tokens: seq<Token>, p: nat): (r: Result<Parsed<Stmt>>)
    ensures r.Success? ==> p < r.value.next <= |tokens| && p < |tokens| && tokens[p].kind == Number
    ensures EofTerminated(tokens) && p < |tokens| ==>
      (r.Success? ==> r.value.next < |tokens|) && (r.Failure? ==> r.error != IndexError)
    decreases |tokens| - p, 0
  {
    var count :- Consume(tokens, p, Number, None);
    var times :- Consume(tokens, count.next, Keyword, Some("times"));
    var body :- Statement(rev, tokens, times.next);
    var n :- ParseInt(count.node.value);
    Success(Parsed(Loop(n, body.node), body.next))
  }

  /** `whileStmt()`: expression `do`, then statements up to `end`. */
  function WhileStmt(rev: Revision, tokens: seq<Token>, p: nat): (r: Result<Parsed<Stmt>>)
    ensures r.Success? ==> p < r.value.next <= |tokens|
    ensures EofTerminated(tokens) && p < |tokens| ==> InBounds(tokens, r)
    decreases |tokens| - p, 0
  {
    var cond :- ExprFor(rev, tokens, p);
    var do_ :- Consume(tokens, cond.next, Keyword, Some("do"));
    var body :- WhileBody(rev, tokens, do_.next);
    Success(Parsed(While(cond.node, body.node), body.next))
  }

  /** The loop of `whileStmt()`: statements until the KEYWORD `end`, which
      is then consumed and is not part of the body. */
  function WhileBody(rev: Revision, tokens: seq<Token>, p: nat): (r: Result<Parsed<seq<Stmt>>>)
    ensures r.Success? ==> p < r.value.next <= |tokens|
    ensures r.Success? ==> tokens[r.value.next - 1] == Token(Keyword, "end")
    ensures EofTerminated(tokens) && p < |tokens| ==> InBounds(tokens, r)
    decreases |tokens| - p, 2
  {
    var atEnd :- Match(tokens, p, Keyword, Some("end"));
    if atEnd then
      // `consume(KEYWORD, 'end')` right after the successful `match`
      Success(Parsed([], p + 1))
    else
      var first :- Statement(rev, tokens, p);
      var rest :- WhileBody(rev, tokens, first.next);
      Success(Parsed([first.node] + rest.node, rest.next))
  }

  /** The loop of `parse()`: statements until the cursor sits on EOF. */
  function ParseFrom(rev: Revision, tokens: seq<Token>, p: nat): (r: Result<seq<Stmt>>)
    ensures EofTerminated(tokens) && p < |tokens| && r.Failure? ==> r.error != IndexError
    decreases |tokens| - p
  {
    var atEof :- Match(tokens, p, Eof, None);
    if atEof then Success([])
    else
      var first :- Statement(rev, tokens, p);
      var rest :- ParseFrom(rev, tokens, first.next);
      Success([first.node] + rest)
  }

  /** `Parser(tokens).parse()` */
  function Parse(rev: Revision, tokens: seq<Token>): (r: Result<seq<Stmt>>)
    ensures EofTerminated(tokens) && r.Failure? ==> r.error != IndexError
  {
    ParseFrom(rev, tokens, 0)
  }
}

=== FILE: parser_facts.dfy ===
/** What the parser of HumanaT/src/parser.py does with any token list: as
    written, `statement()` fails on every input and the comparison branches
    of `expression()` never return. */
module ParserFacts {
  import opened Base
  import opened Lexer
  import opened Ast
  import opened Decimal
  import opened Parser

  /** A comparison branch re-enters `expression()` on the very token it
      matched, so it recurses until Python's limit is hit, whatever the
      limit. */
  lemma {:induction false} ComparisonNeverReturns(tokens: seq<Token>, p: nat, depth: nat)
    requires p < |tokens| && ComparisonOf(tokens[p]).Some?
    ensures Expression(tokens, p, depth) == Failure(RecursionError)
    decreases depth
  {
    if depth > 0 {
      ComparisonNeverReturns(tokens, p, depth - 1);
    }
  }

  /** Everything `expression()` as written can do: parse a single primary,
      recurse without end on a comparison phrase, or reject the token. */
  lemma ExpressionAsWritten(tokens: seq<Token>, p: nat, depth: nat)
    requires 0 < depth
    ensures Expression(tokens, p, depth) ==
      if p >= |tokens| then Failure(IndexError)
      else if IsPrimary(tokens[p]) then Success(Parsed(PrimaryNode(tokens[p]), p + 1))
      else if ComparisonOf(tokens[p]).Some? then Failure(RecursionError)
      else Failure(SyntaxError(tokens[p]))
  {
    if p < |tokens| && ComparisonOf(tokens[p]).Some? {
      ComparisonNeverReturns(tokens, p, depth);
    }
  }

  /** As written, every production starts on the reserved word that
      `statement()` matched but did not consume, and rejects it: so
      `statement()` raises `SyntaxError` on the token under the cursor,
      whatever the input. */
  lemma StatementAsWritten(tokens: seq<Token>, p: nat)
    ensures Statement(AsWritten, tokens, p) ==
      Failure(if p < |tokens| then SyntaxError(tokens[p]) else IndexError)
  {
    if p < |tokens| && tokens[p].kind == Keyword {
      ExpressionAsWritten(tokens, p, RecursionLimit);
    }
  }

  /** As written, `parse()` accepts exactly the token lists that start with
      EOF, and returns no statements for them. */
  lemma ParseAsWritten(tokens: seq<Token>)
    ensures Parse(AsWritten, tokens) ==
      if |tokens| == 0 then Failure(IndexError)
      else if tokens[0].kind == Eof then Success([])
      else Failure(SyntaxError(tokens[0]))
  {
    StatementAsWritten(tokens, 0);
  }

  /** A `while` body that reaches EOF before `end` raises `SyntaxError` on
      the EOF token. */
  lemma WhileBodyAtEof(rev: Revision, tokens: seq<Token>, p: nat)
    requires p < |tokens| && tokens[p].kind == Eof
    ensures WhileBody(rev, tokens, p) == Failure(SyntaxError(tokens[p]))
  {
  }

  /** `end` closes a `while` body: it is consumed and adds no statement. */
  lemma WhileBodyAtEnd(rev: Revision, tokens: seq<Token>, p: nat)
    requires p < |tokens| && tokens[p] == Token(Keyword, "end")
    ensures WhileBody(rev, tokens, p) == Success(Parsed([], p + 1))
  {
  }

  /** `loopStmt()` on NUMBER `times` statement builds a loop node whose
      count is the numeral's value. */
  lemma LoopStmtShape(rev: Revision, tokens: seq<Token>, p: nat, body: Stmt, q: nat)
    requires p + 1 < |tokens| && tokens[p].kind == Number
    requires 0 < |tokens[p].value| && AllDigits(tokens[p].value)
    requires tokens[p + 1] == Token(Keyword, "times")
    requires Statement(rev, tokens, p + 2) == Success(Parsed(body, q))
    ensures LoopStmt(rev, tokens, p) == Success(Parsed(Loop(ValueOf(tokens[p].value), body), q))
  {
  }
}

=== FILE: pipeline.dfy ===
/** `run(code)` of HumanaT/src/humanat.py:172-177: tokenize, parse, then
    interpret. A parse error ends the run before anything is printed. */
module Pipeline {
  import opened Base
  import opened Lexer
  import opened LexerFacts
  import opened Parser
  import opened ParserFacts
  import opened Interpreter

  /** `run(code)` built from the given lexer and parser revision and
      interpreter copy. The whole program is parsed before any of it runs,
      so an error that is not a run-time error leaves nothing printed and
      no variable set. */
  function RunCode(rev: Revision, d: Dialect, code: string, fuel: nat): (o: Outcome)
    ensures o.Abrupt? && !RuntimeError(o.error) ==> o.st == EmptyState
  {
    var prog := Parse(rev, Tokenize(rev, code));
    if prog.Failure? then Abrupt(EmptyState, prog.error) else Run(d, prog.value, fuel)
  }

  /** `run(code)` exactly as humanat.py has it: it never prints a line or
      sets a variable, and the only error it raises is a `SyntaxError`. */
  function RunScript(code: string, fuel: nat): (o: Outcome)
    ensures o.st == EmptyState
    ensures o.Abrupt? ==> o.error.SyntaxError?
  {
    ParseAsWritten(Tokenize(AsWritten, code));
    RunCode(AsWritten, ScriptInterpreter, code, fuel)
  }

  /** As written, a HumanaT program does nothing: text without a word or a
      quoted string runs as the empty program, and any other text raises
      `SyntaxError` on its first token before a line is printed. */
  lemma RunScriptNeverRuns(code: string, fuel: nat)
    ensures RunScript(code, fuel) ==
      if NoTokenText(code) then Normal(EmptyState)
      else Abrupt(EmptyState, SyntaxError(Tokenize(AsWritten, code)[0]))
  {
    var tokens := Tokenize(AsWritten, code);
    OnlyEof(AsWritten, code);
    ParseAsWritten(tokens);
    if !NoTokenText(code) {
      assert tokens != [EofToken];
    }
  }

  /** The token `run(code)` fails on, as written, is a word, a number or a
      string, never a reserved word. */
  lemma RunScriptFailsOnOrdinaryToken(code: string, fuel: nat)
    requires !NoTokenText(code)
    ensures RunScript(code, fuel).Abrupt?
    ensures RunScript(code, fuel).error.SyntaxError?
    ensures RunScript(code, fuel).error.token.kind in {Identifier, Number, String}
  {
    RunScriptNeverRuns(code, fuel);
    AsWrittenTokenizeNeverKeyword(code);
  }
}

=== FILE: roundtrip.dfy ===
/** The corrected parser reads back the token sequence of any statement the
    grammar describes: `statement()` consumes its reserved word and
    `expression()` reads `primary [comparison primary]`. The `== true`
    equations are explained at `Layout.Placed`. */
module RoundTrip {
  import opened Base
  import opened Lexer
  import opened Ast
  import opened Decimal
  import opened Parser
  import opened Layout

  lemma StmtAtOpens(tokens: seq<Token>, p: nat, s: Stmt)
    requires GrammarStmt(s) && StmtAt(tokens, p, s)
    ensures p < |tokens| && Opener(tokens[p])
  {
  }

  /** A statement opener or a closing `end` or EOF is not a comparison
      phrase. */
  lemma OpenerFollows(tokens: seq<Token>, q: nat)
    requires q < |tokens| && (Opener(tokens[q]) || tokens[q] == Kw("then") || tokens[q] == Kw("do")
      || tokens[q] == Kw("end") || tokens[q] == EofToken)
    ensures Follows(tokens, q)
  {
  }

  lemma ThenFollows(tokens: seq<Token>, q: nat)
    requires q < |tokens| && tokens[q] == Kw("then")
    ensures Follows(tokens, q)
  {
    OpenerFollows(tokens, q);
  }

  lemma DoFollows(tokens: seq<Token>, q: nat)
    requires q < |tokens| && tokens[q] == Kw("do")
    ensures Follows(tokens, q)
  {
    OpenerFollows(tokens, q);
  }

  // ---------------------------------------------------------------------
  // The corrected parser reads a laid-out tree back

  /** The corrected `expression()` reads back a laid-out expression. */
  lemma ExprRoundTrip(tokens: seq<Token>, p: nat, e: Expr)
    requires GrammarExpr(e) && ExprAt(tokens, p, e) && Follows(tokens, p + ExprWidth(e))
    ensures ExprFor(Corrected, tokens, p) == Success(Parsed(e, p + ExprWidth(e)))
  {
  }

  /** The corrected `statement()` moves past the reserved word it matched
      and hands over to its production. */
  lemma DispatchSay(tokens: seq<Token>, p: nat)
    requires p < |tokens| && tokens[p] == Kw("say")
    ensures Statement(Corrected, tokens, p) == PrintStmt(tokens, p + 1)
  {
  }

  lemma DispatchLet(tokens: seq<Token>, p: nat)
    requires p < |tokens| && tokens[p] == Kw("let")
    ensures Statement(Corrected, tokens, p) == AssignStmt(Corrected, tokens, p + 1)
  {
  }

  lemma DispatchIf(tokens: seq<Token>, p: nat)
    requires p < |tokens| && tokens[p] == Kw("if")
    ensures Statement(Corrected, tokens, p) == IfStmt(Corrected, tokens, p + 1)
  {
  }

  lemma DispatchRepeat(tokens: seq<Token>, p: nat)
    requires p < |tokens| && tokens[p] == Kw("repeat")
    ensures Statement(Corrected, tokens, p) == LoopStmt(Corrected, tokens, p + 1)
  {
  }

  lemma DispatchWhile(tokens: seq<Token>, p: nat)
    requires p < |tokens| && tokens[p] == Kw("while")
    ensures Statement(Corrected, tokens, p) == WhileStmt(Corrected, tokens, p + 1)
  {
  }

  /** `printStmt()` after the reserved word. */
  lemma PrintStep(tokens: seq<Token>, p: nat, literal: string)
    requires p < |tokens| && tokens[p] == Token(String, literal)
    ensures PrintStmt(tokens, p) == Success(Parsed(Print(literal), p + 1))
  {
    assert Consume(tokens, p, String, None) == Success(Parsed(tokens[p], p + 1));
  }

  /** `assignStmt()` from its parts. */
  lemma AssignStep(tokens: seq<Token>, p: nat, name: string, value: Expr, r: nat)
    requires p + 1 < |tokens| && tokens[p] == Token(Identifier, name) && tokens[p + 1] == Kw("be")
    requires ExprFor(Corrected, tokens, p + 2) == Success(Parsed(value, r))
    ensures AssignStmt(Corrected, tokens, p) == Success(Parsed(Assign(name, value), r))
  {
    assert Consume(tokens, p, Identifier, None) == Success(Parsed(tokens[p], p + 1));
    assert Consume(tokens, p + 1, Keyword, Some("be")) == Success(Parsed(tokens[p + 1], p + 2));
  }

  /** `ifStmt()` from its parts. */
  lemma IfStep(tokens: seq<Token>, p: nat, cond: Expr, q: nat, body: Stmt, r: nat)
    requires ExprFor(Corrected, tokens, p) == Success(Parsed(cond, q))
    requires q < |tokens| && tokens[q] == Kw("then")
    requires Statement(Corrected, tokens, q + 1) == Success(Parsed(body, r))
    ensures IfStmt(Corrected, tokens, p) == Success(Parsed(If(cond, body), r))
  {
    assert Consume(tokens, q, Keyword, Some("then")) == Success(Parsed(tokens[q], q + 1));
  }

  /** `loopStmt()` from its parts. */
  lemma LoopStep(tokens: seq<Token>, p: nat, count: nat, body: Stmt, r: nat)
    requires p + 1 < |tokens| && tokens[p] == Token(Number, ToDecimal(count)) && tokens[p + 1] == Kw("times")
    requires Statement(Corrected, tokens, p + 2) == Success(Parsed(body, r))
    ensures LoopStmt(Corrected, tokens, p) == Success(Parsed(Loop(count, body), r))
  {
    ParseToDecimal(count);
    assert Consume(tokens, p, Number, None) == Success(Parsed(tokens[p], p + 1));
    assert Consume(tokens, p + 1, Keyword, Some("times")) == Success(Parsed(tokens[p + 1], p + 2));
  }

  /** `whileStmt()` from its parts. */
  lemma WhileStep(tokens: seq<Token>, p: nat, cond: Expr, q: nat, block: seq<Stmt>, r: nat)
    requires ExprFor(Corrected, tokens, p) == Success(Parsed(cond, q))
    requires q < |tokens| && tokens[q] == Kw("do")
    requires WhileBody(Corrected, tokens, q + 1) == Success(Parsed(block, r))
    ensures WhileStmt(Corrected, tokens, p) == Success(Parsed(While(cond, block), r))
  {
    assert Consume(tokens, q, Keyword, Some("do")) == Success(Parsed(tokens[q], q + 1));
  }

  /** `end` closes a `while` body. */
  lemma WhileBodyEnd(tokens: seq<Token>, p: nat)
    requires p < |tokens| && tokens[p] == Kw("end")
    ensures WhileBody(Corrected, tokens, p) == Success(Parsed([], p + 1))
  {
    assert Parser.Match(tokens, p, Keyword, Some("end")) == Success(true);
  }

  /** One more statement of a `while` body. */
  lemma WhileBodyStep(tokens: seq<Token>, p: nat, s: Stmt, q: nat, ss: seq<Stmt>, r: nat)
    requires p < |tokens| && tokens[p] != Kw("end")
    requires Statement(Corrected, tokens, p) == Success(Parsed(s, q))
    requires WhileBody(Corrected, tokens, q) == Success(Parsed(ss, r))
    ensures WhileBody(Corrected, tokens, p) == Success(Parsed([s] + ss, r))
  {
    assert Parser.Match(tokens, p, Keyword, Some("end")) == Success(false);
  }

  /** EOF ends a program. */
  lemma ParseFromEof(tokens: seq<Token>, p: nat)
    requires p < |tokens| && tokens[p] == EofToken
    ensures ParseFrom(Corrected, tokens, p) == Success([])
  {
    assert Parser.Match(tokens, p, Eof, None) == Success(true);
  }

  /** One more statement of a program. */
  lemma ParseFromStep(tokens: seq<Token>, p: nat, s: Stmt, q: nat, ss: seq<Stmt>)
    requires p < |tokens| && tokens[p].kind != Eof
    requires Statement(Corrected, tokens, p) == Success(Parsed(s, q))
    requires ParseFrom(Corrected, tokens, q) == Success(ss)
    ensures ParseFrom(Corrected, tokens, p) == Success([s] + ss)
  {
    assert Parser.Match(tokens, p, Eof, None) == Success(false);
  }

  /** The corrected `statement()` reads back a placed statement, leaving the
      cursor just after it. */
  lemma {:induction false} StmtRoundTrip(tokens: seq<Token>, p: nat, s: Stmt)
    requires Placed(tokens, p, s)
    ensures Statement(Corrected, tokens, p) == Success(Parsed(s, p + Width(s)))
    decreases s, 3
  {
    match s
    case Print(literal) => PrintRoundTrip(tokens, p, literal);
    case Assign(name, value) => AssignRoundTrip(tokens, p, name, value);
    case If(cond, body) => IfRoundTrip(tokens, p, cond, body);
    case Loop(count, body) => LoopRoundTrip(tokens, p, count, body);
    case While(cond, block) => WhileRoundTrip(tokens, p, cond, block);
  }

  lemma PrintRoundTrip(tokens: seq<Token>, p: nat, literal: string)
    requires Placed(tokens, p, Print(literal))
    ensures Statement(Corrected, tokens, p) == Success(Parsed(Print(literal), p + Width(Print(literal))))
  {
    PrintStep(tokens, p + 1, literal);
    DispatchSay(tokens, p);
  }

  lemma AssignRoundTrip(tokens: seq<Token>, p: nat, name: string, value: Expr)
    requires Placed(tokens, p, Assign(name, value))
    ensures Statement(Corrected, tokens, p) == Success(Parsed(Assign(name, value), p + Width(Assign(name, value))))
  {
    var r := p + 3 + ExprWidth(value);
    assert ExprFor(Corrected, tokens, p + 3) == Success(Parsed(value, r)) by {
      ExprRoundTrip(tokens, p + 3, value);
    }
    AssignStep(tokens, p + 1, name, value, r);
    DispatchLet(tokens, p);
  }

  lemma {:induction false} IfRoundTrip(tokens: seq<Token>, p: nat, cond: Expr, body: Stmt)
    requires Placed(tokens, p, If(cond, body))
    ensures Statement(Corrected, tokens, p) == Success(Parsed(If(cond, body), p + Width(If(cond, body))))
    decreases If(cond, body), 2
  {
    IfAt(tokens, p, cond, body);
    IfParts(tokens, p, cond, p + 1 + ExprWidth(cond), body, p + Width(If(cond, body)));
  }

  /** The parts of a placed `if` statement. */
  lemma IfAt(tokens: seq<Token>, p: nat, cond: Expr, body: Stmt)
    requires Placed(tokens, p, If(cond, body))
    ensures p < |tokens| && tokens[p] == Kw("if") && GrammarExpr(cond) && ExprAt(tokens, p + 1, cond)
    ensures p + 1 + ExprWidth(cond) < |tokens| && tokens[p + 1 + ExprWidth(cond)] == Kw("then")
    ensures Placed(tokens, p + 1 + ExprWidth(cond) + 1, body)
    ensures p + Width(If(cond, body)) == p + 1 + ExprWidth(cond) + 1 + Width(body)
  {
  }

  lemma {:induction false} IfParts(tokens: seq<Token>, p: nat, cond: Expr, q: nat, body: Stmt, r: nat)
    requires p < |tokens| && tokens[p] == Kw("if")
    requires GrammarExpr(cond) == true && ExprAt(tokens, p + 1, cond) == true && q == p + 1 + ExprWidth(cond)
    requires q < |tokens| && tokens[q] == Kw("then")
    requires Placed(tokens, q + 1, body) && r == q + 1 + Width(body)
    ensures Statement(Corrected, tokens, p) == Success(Parsed(If(cond, body), r))
    decreases If(cond, body), 1
  {
    StmtRoundTrip(tokens, q + 1, body);
    IfHead(tokens, p, cond, q, body, r);
  }

  /** `if` with a laid-out condition and `then`, given what its body
      parses to. */
  lemma IfHead(tokens: seq<Token>, p: nat, cond: Expr, q: nat, body: Stmt, r: nat)
    requires p < |tokens| && tokens[p] == Kw("if")
    requires GrammarExpr(cond) == true && ExprAt(tokens, p + 1, cond) == true && q == p + 1 + ExprWidth(cond)
    requires q < |tokens| && tokens[q] == Kw("then")
    requires Statement(Corrected, tokens, q + 1) == Success(Parsed(body, r))
    ensures Statement(Corrected, tokens, p) == Success(Parsed(If(cond, body), r))
  {
    ThenFollows(tokens, q);
    ExprRoundTrip(tokens, p + 1, cond);
    IfStep(tokens, p + 1, cond, q, body, r);
    DispatchIf(tokens, p);
  }

  lemma {:induction false} LoopRoundTrip(tokens: seq<Token>, p: nat, count: int, body: Stmt)
    requires Placed(tokens, p, Loop(count, body))
    ensures Statement(Corrected, tokens, p) == Success(Parsed(Loop(count, body), p + Width(Loop(count, body))))
    decreases Loop(count, body), 2
  {
    LoopAt(tokens, p, count, body);
    LoopParts(tokens, p, count, body, p + Width(Loop(count, body)));
  }

  /** The parts of a placed `repeat` statement. */
  lemma LoopAt(tokens: seq<Token>, p: nat, count: int, body: Stmt)
    requires Placed(tokens, p, Loop(count, body))
    ensures 0 <= count && p + 2 < |tokens| && tokens[p] == Kw("repeat")
    ensures tokens[p + 1] == Token(Number, ToDecimal(count)) && tokens[p + 2] == Kw("times")
    ensures Placed(tokens, p + 3, body)
    ensures p + Width(Loop(count, body)) == p + 3 + Width(body)
  {
  }

  lemma {:induction false} LoopParts(tokens: seq<Token>, p: nat, count: nat, body: Stmt, r: nat)
    requires p + 2 < |tokens| && tokens[p] == Kw("repeat")
    requires tokens[p + 1] == Token(Number, ToDecimal(count)) && tokens[p + 2] == Kw("times")
    requires Placed(tokens, p + 3, body) && r == p + 3 + Width(body)
    ensures Statement(Corrected, tokens, p) == Success(Parsed(Loop(count, body), r))
    decreases Loop(count, body), 1
  {
    StmtRoundTrip(tokens, p + 3, body);
    LoopStep(tokens, p + 1, count, body, r);
    DispatchRepeat(tokens, p);
  }

  lemma {:induction false} WhileRoundTrip(tokens: seq<Token>, p: nat, cond: Expr, block: seq<Stmt>)
    requires Placed(tokens, p, While(cond, block))
    ensures Statement(Corrected, tokens, p) == Success(Parsed(While(cond, block), p + Width(While(cond, block))))
    decreases While(cond, block), 2
  {
    WhileAt(tokens, p, cond, block);
    WhileParts(tokens, p, cond, p + 1 + ExprWidth(cond), block, p + Width(While(cond, block)));
  }

  /** The parts of a placed `while` statement. */
  lemma WhileAt(tokens: seq<Token>, p: nat, cond: Expr, block: seq<Stmt>)
    requires Placed(tokens, p, While(cond, block))
    ensures p < |tokens| && tokens[p] == Kw("while") && GrammarExpr(cond) && ExprAt(tokens, p + 1, cond)
    ensures p + 1 + ExprWidth(cond) < |tokens| && tokens[p + 1 + ExprWidth(cond)] == Kw("do")
    ensures Closed(tokens, p + 1 + ExprWidth(cond) + 1, block)
    ensures p + Width(While(cond, block)) == p + 1 + ExprWidth(cond) + 1 + BlockWidth(block) + 1
  {
  }

  lemma {:induction false} WhileParts(tokens: seq<Token>, p: nat, cond: Expr, q: nat, block: seq<Stmt>, r: nat)
    requires p < |tokens| && tokens[p] == Kw("while")
    requires GrammarExpr(cond) == true && ExprAt(tokens, p + 1, cond) == true && q == p + 1 + ExprWidth(cond)
    requires q < |tokens| && tokens[q] == Kw("do")
    requires Closed(tokens, q + 1, block) && r == q + 1 + BlockWidth(block) + 1
    ensures Statement(Corrected, tokens, p) == Success(Parsed(While(cond, block), r))
    decreases While(cond, block), 1
  {
    BlockRoundTrip(tokens, q + 1, block);
    WhileHead(tokens, p, cond, q, block, r);
  }

  /** `while` with a laid-out condition and `do`, given what its body
      parses to. */
  lemma WhileHead(tokens: seq<Token>, p: nat, cond: Expr, q: nat, block: seq<Stmt>, r: nat)
    requires p < |tokens| && tokens[p] == Kw("while")
    requires GrammarExpr(cond) == true && ExprAt(tokens, p + 1, cond) == true && q == p + 1 + ExprWidth(cond)
    requires q < |tokens| && tokens[q] == Kw("do")
    requires WhileBody(Corrected, tokens, q + 1) == Success(Parsed(block, r))
    ensures Statement(Corrected, tokens, p) == Success(Parsed(While(cond, block), r))
  {
    DoFollows(tokens, q);
    ExprRoundTrip(tokens, p + 1, cond);
    WhileStep(tokens, p + 1, cond, q, block, r);
    DispatchWhile(tokens, p);
  }

  /** A non-empty laid-out block is its first statement followed by the
      rest. */
  lemma BlockHead(tokens: seq<Token>, p: nat, ss: seq<Stmt>)
    requires GrammarBlock(ss) && 0 < |ss| && BlockAt(tokens, p, ss)
    ensures GrammarStmt(ss[0]) == true && StmtAt(tokens, p, ss[0]) == true
    ensures GrammarBlock(ss[1..]) == true && BlockAt(tokens, p + Width(ss[0]), ss[1..]) == true
    ensures BlockWidth(ss) == Width(ss[0]) + BlockWidth(ss[1..])
  {
  }

  /** In a laid-out block closed by `end` or EOF, the first statement is
      followed by the next one or by the closing token. */
  lemma BlockNext(tokens: seq<Token>, p: nat, ss: seq<Stmt>)
    requires GrammarBlock(ss) && 0 < |ss| && BlockAt(tokens, p, ss)
    requires p + BlockWidth(ss) < |tokens|
    requires tokens[p + BlockWidth(ss)] == Kw("end") || tokens[p + BlockWidth(ss)] == EofToken
    ensures p < |tokens| && Opener(tokens[p])
    ensures Follows(tokens, p + Width(ss[0])) == true
  {
    var q := p + Width(ss[0]);
    BlockHead(tokens, p, ss);
    StmtAtOpens(tokens, p, ss[0]);
    if |ss| > 1 {
      BlockHead(tokens, q, ss[1..]);
      StmtAtOpens(tokens, q, ss[1..][0]);
    }
    OpenerFollows(tokens, q);
  }

  /** A laid-out block closed by `end` is one statement placed before the
      rest of the block. */
  lemma BlockAtHead(tokens: seq<Token>, p: nat, ss: seq<Stmt>)
    requires Closed(tokens, p, ss) && 0 < |ss|
    ensures Placed(tokens, p, ss[0]) && Closed(tokens, p + Width(ss[0]), ss[1..])
    ensures p < |tokens| && tokens[p] != Kw("end")
    ensures p + Width(ss[0]) + BlockWidth(ss[1..]) + 1 == p + BlockWidth(ss) + 1
  {
    BlockHead(tokens, p, ss);
    BlockNext(tokens, p, ss);
  }

  /** The corrected body loop of `whileStmt()` reads back a block closed by
      `end`, and consumes the `end`. */
  lemma {:induction false} BlockRoundTrip(tokens: seq<Token>, p: nat, ss: seq<Stmt>)
    requires Closed(tokens, p, ss)
    ensures WhileBody(Corrected, tokens, p) == Success(Parsed(ss, p + BlockWidth(ss) + 1))
    decreases ss, 1
  {
    if |ss| == 0 {
      WhileBodyEnd(tokens, p);
    } else {
      assert [ss[0]] + ss[1..] == ss;
      BlockAtHead(tokens, p, ss);
      BlockParts(tokens, p, ss, p + Width(ss[0]), p + BlockWidth(ss) + 1);
    }
  }

  lemma {:induction false} BlockParts(tokens: seq<Token>, p: nat, ss: seq<Stmt>, q: nat, r: nat)
    requires 0 < |ss| && p < |tokens| && tokens[p] != Kw("end")
    requires Placed(tokens, p, ss[0]) && q == p + Width(ss[0])
    requires Closed(tokens, q, ss[1..]) && r == q + BlockWidth(ss[1..]) + 1
    ensures WhileBody(Corrected, tokens, p) == Success(Parsed([ss[0]] + ss[1..], r))
    decreases ss, 0
  {
    StmtRoundTrip(tokens, p, ss[0]);
    BlockRoundTrip(tokens, q, ss[1..]);
    WhileBodyStep(tokens, p, ss[0], q, ss[1..], r);
  }

  /** A laid-out program closed by EOF is one statement placed before the
      rest of the program. */
  lemma ProgramAtHead(tokens: seq<Token>, p: nat, prog: seq<Stmt>)
    requires Ended(tokens, p, prog) && 0 < |prog|
    ensures Placed(tokens, p, prog[0]) && Ended(tokens, p + Width(prog[0]), prog[1..])
    ensures p < |tokens| && tokens[p].kind != Eof
  {
    BlockHead(tokens, p, prog);
    BlockNext(tokens, p, prog);
  }

  /** The corrected `parse()` loop reads back a program closed by EOF. */
  lemma {:induction false} ProgramRoundTrip(tokens: seq<Token>, p: nat, prog: seq<Stmt>)
    requires Ended(tokens, p, prog)
    ensures ParseFrom(Corrected, tokens, p) == Success(prog)
    decreases prog, 1
  {
    if |prog| == 0 {
      ParseFromEof(tokens, p);
    } else {
      assert [prog[0]] + prog[1..] == prog;
      ProgramAtHead(tokens, p, prog);
      ProgramParts(tokens, p, prog, p + Width(prog[0]));
    }
  }

  lemma {:induction false} ProgramParts(tokens: seq<Token>, p: nat, prog: seq<Stmt>, q: nat)
    requires 0 < |prog| && p < |tokens| && tokens[p].kind != Eof
    requires Placed(tokens, p, prog[0]) && q == p + Width(prog[0]) && Ended(tokens, q, prog[1..])
    ensures ParseFrom(Corrected, tokens, p) == Success([prog[0]] + prog[1..])
    decreases prog, 0
  {
    StmtRoundTrip(tokens, p, prog[0]);
    ProgramRoundTrip(tokens, q, prog[1..]);
    ParseFromStep(tokens, p, prog[0], q, prog[1..]);
  }


  // ---------------------------------------------------------------------
  // A rendered tree is laid out where it is rendered

  lemma AtSplit(tokens: seq<Token>, p: nat, a: seq<Token>, b: seq<Token>)
    requires At(tokens, p, a + b)
    ensures At(tokens, p, a) && At(tokens, p + |a|, b)
  {
    var whole := tokens[p..p + |a| + |b|];
    assert whole[..|a|] == a && whole[|a|..] == b;
    assert tokens[p..p + |a|] == whole[..|a|];
    assert tokens[p + |a|..p + |a| + |b|] == whole[|a|..];
  }

  /** The token at offset `k` of an occurrence. */
  lemma AtIndex(tokens: seq<Token>, p: nat, ts: seq<Token>, k: nat)
    requires At(tokens, p, ts) && k < |ts|
    ensures tokens[p + k] == ts[k]
  {
    assert tokens[p..p + |ts|][k] == tokens[p + k];
  }

  /** An occurrence of `[a] + e + [b] + r`, piece by piece. */
  lemma AtBracketed(tokens: seq<Token>, p: nat, a: Token, e: seq<Token>, b: Token, r: seq<Token>)
    requires At(tokens, p, [a] + e + [b] + r)
    ensures tokens[p] == a && At(tokens, p + 1, e)
    ensures tokens[p + 1 + |e|] == b && At(tokens, p + 2 + |e|, r)
  {
    AtSplit(tokens, p, [a] + e + [b], r);
    AtSplit(tokens, p, [a] + e, [b]);
    AtSplit(tokens, p, [a], e);
    AtIndex(tokens, p, [a], 0);
    AtIndex(tokens, p + 1 + |e|, [b], 0);
  }

  /** An occurrence of `[a] + e + [b] + m + [c]`, piece by piece. */
  lemma AtEnclosed(tokens: seq<Token>, p: nat, a: Token, e: seq<Token>, b: Token, m: seq<Token>, c: Token)
    requires At(tokens, p, [a] + e + [b] + m + [c])
    ensures tokens[p] == a && At(tokens, p + 1, e) && tokens[p + 1 + |e|] == b
    ensures At(tokens, p + 2 + |e|, m) && p + 2 + |e| + |m| < |tokens| && tokens[p + 2 + |e| + |m|] == c
  {
    AtSplit(tokens, p, [a] + e + [b] + m, [c]);
    AtBracketed(tokens, p, a, e, b, m);
    AtIndex(tokens, p + 2 + |e| + |m|, [c], 0);
  }

  lemma RenderExprAt(tokens: seq<Token>, p: nat, e: Expr)
    requires GrammarExpr(e) && At(tokens, p, RenderExpr(e))
    ensures |RenderExpr(e)| == ExprWidth(e) && ExprAt(tokens, p, e)
  {
    var ts := RenderExpr(e);
    AtIndex(tokens, p, ts, 0);
    if !PrimaryExpr(e) {
      AtIndex(tokens, p, ts, 1);
      AtIndex(tokens, p, ts, 2);
    }
  }

  /** A rendered statement is laid out where it occurs, over `Width` tokens. */
  lemma {:induction false} RenderAt(tokens: seq<Token>, p: nat, s: Stmt)
    requires GrammarStmt(s) == true && At(tokens, p, Render(s))
    ensures |Render(s)| == Width(s) && StmtAt(tokens, p, s) == true
    decreases s, 1
  {
    match s
    case Print(literal) => RenderPrintAt(tokens, p, literal);
    case Assign(name, value) => RenderAssignAt(tokens, p, name, value);
    case If(cond, body) => RenderIfAt(tokens, p, cond, body);
    case Loop(count, body) => RenderLoopAt(tokens, p, count, body);
    case While(cond, block) => RenderWhileAt(tokens, p, cond, block);
  }

  lemma RenderPrintAt(tokens: seq<Token>, p: nat, literal: string)
    requires At(tokens, p, Render(Print(literal)))
    ensures |Render(Print(literal))| == 2 && StmtAt(tokens, p, Print(literal))
  {
    var ts := Render(Print(literal));
    AtIndex(tokens, p, ts, 0);
    AtIndex(tokens, p, ts, 1);
  }

  lemma RenderAssignAt(tokens: seq<Token>, p: nat, name: string, value: Expr)
    requires GrammarExpr(value) && At(tokens, p, Render(Assign(name, value)))
    ensures |Render(Assign(name, value))| == Width(Assign(name, value))
    ensures StmtAt(tokens, p, Assign(name, value))
  {
    var head := [Kw("let"), Token(Identifier, name), Kw("be")];
    AtSplit(tokens, p, head, RenderExpr(value));
    AtIndex(tokens, p, head, 0);
    AtIndex(tokens, p, head, 1);
    AtIndex(tokens, p, head, 2);
    RenderExprAt(tokens, p + 3, value);
  }

  lemma {:induction false} RenderIfAt(tokens: seq<Token>, p: nat, cond: Expr, body: Stmt)
    requires GrammarStmt(If(cond, body)) && At(tokens, p, Render(If(cond, body)))
    ensures |Render(If(cond, body))| == Width(If(cond, body)) && StmtAt(tokens, p, If(cond, body))
    decreases If(cond, body), 0
  {
    var e := RenderExpr(cond);
    AtBracketed(tokens, p, Kw("if"), e, Kw("then"), Render(body));
    RenderExprAt(tokens, p + 1, cond);
    RenderAt(tokens, p + 2 + |e|, body);
  }

  lemma {:induction false} RenderLoopAt(tokens: seq<Token>, p: nat, count: int, body: Stmt)
    requires GrammarStmt(Loop(count, body)) && At(tokens, p, Render(Loop(count, body)))
    ensures |Render(Loop(count, body))| == Width(Loop(count, body)) && StmtAt(tokens, p, Loop(count, body))
    decreases Loop(count, body), 0
  {
    var head := [Kw("repeat"), Token(Number, ToDecimal(count)), Kw("times")];
    AtSplit(tokens, p, head, Render(body));
    AtIndex(tokens, p, head, 0);
    AtIndex(tokens, p, head, 1);
    AtIndex(tokens, p, head, 2);
    RenderAt(tokens, p + 3, body);
  }

  lemma {:induction false} RenderWhileAt(tokens: seq<Token>, p: nat, cond: Expr, block: seq<Stmt>)
    requires GrammarStmt(While(cond, block)) && At(tokens, p, Render(While(cond, block)))
    ensures |Render(While(cond, block))| == Width(While(cond, block)) && StmtAt(tokens, p, While(cond, block))
    decreases While(cond, block), 0
  {
    var e, b := RenderExpr(cond), RenderBlock(block);
    AtEnclosed(tokens, p, Kw("while"), e, Kw("do"), b, Kw("end"));
    RenderExprAt(tokens, p + 1, cond);
    RenderBlockAt(tokens, p + 2 + |e|, block);
    var q, r := p + 2 + |e|, p + 2 + |e| + |b|;
    assert q == p + 2 + ExprWidth(cond) && r == q + BlockWidth(block);
    assert r < |tokens| && tokens[r] == Kw("end");
    WhileAtCons(tokens, p, cond, block);
  }

  /** A `while` statement is laid out where its parts are. */
  lemma WhileAtCons(tokens: seq<Token>, p: nat, cond: Expr, block: seq<Stmt>)
    requires GrammarStmt(While(cond, block)) == true
    requires p < |tokens| && tokens[p] == Kw("while") && ExprAt(tokens, p + 1, cond) == true
    requires p + 1 + ExprWidth(cond) < |tokens| && tokens[p + 1 + ExprWidth(cond)] == Kw("do")
    requires BlockAt(tokens, p + 2 + ExprWidth(cond), block) == true
    requires p + 2 + ExprWidth(cond) + BlockWidth(block) < |tokens|
    requires tokens[p + 2 + ExprWidth(cond) + BlockWidth(block)] == Kw("end")
    ensures StmtAt(tokens, p, While(cond, block)) == true
  {
  }

  lemma {:induction false} RenderBlockAt(tokens: seq<Token>, p: nat, ss: seq<Stmt>)
    requires GrammarBlock(ss) == true && At(tokens, p, RenderBlock(ss))
    ensures |RenderBlock(ss)| == BlockWidth(ss) && BlockAt(tokens, p, ss) == true
    decreases ss, 2
  {
    if |ss| != 0 {
      AtSplit(tokens, p, Render(ss[0]), RenderBlock(ss[1..]));
      RenderAt(tokens, p, ss[0]);
      RenderBlockAt(tokens, p + |Render(ss[0])|, ss[1..]);
      BlockAtCons(tokens, p, ss);
    }
  }

  /** A block is laid out where its first statement is, followed by the
      rest. */
  lemma BlockAtCons(tokens: seq<Token>, p: nat, ss: seq<Stmt>)
    requires GrammarBlock(ss) && 0 < |ss|
    requires StmtAt(tokens, p, ss[0]) == true && BlockAt(tokens, p + Width(ss[0]), ss[1..]) == true
    ensures BlockAt(tokens, p, ss) == true
  {
  }

  /** The corrected parser reads back every program of the grammar. */
  lemma ParseRoundTrip(prog: seq<Stmt>)
    requires GrammarBlock(prog)
    ensures Parse(Corrected, RenderProgram(prog)) == Success(prog)
  {
    var tokens := RenderProgram(prog);
    AtSplit(tokens, 0, RenderBlock(prog), [EofToken]);
    AtIndex(tokens, |RenderBlock(prog)|, [EofToken], 0);
    RenderBlockAt(tokens, 0, prog);
    ProgramRoundTrip(tokens, 0, prog);
  }
}
